=== FILE: README.md ===
# captlog storage backend, modelled in Dafny

captlog ("The Captain's Log") is a diary application. It keeps its entries in
an SQLite database whose entry contents are encrypted. This project models
the core of `DefaultStorageBackend` in `src/lib/StorageBackend.py`. The core
has three parts:

- **the unlock protocol.** On first use the constructor writes a verification
  record. That record holds:
  - the kdf name, a salt and an iteration count;
  - the cipher name and a nonce;
  - a verifier: "CAPTAINS LOG" encrypted under the PBKDF2-derived key.

  On every later open it checks the record. It accepts the passphrase
  exactly when the derived key decrypts the verifier to "CAPTAINS LOG".
- **the cipher envelope.** `_get_cipher_nonce` starts a 128-bit counter at the
  nonce read as a little-endian integer. Content is encrypted with AES-256
  in counter mode and then authenticated with HMAC-SHA256 over the
  ciphertext (encrypt-then-MAC). The MAC uses the same master key.
- **the repository.** Four relations: `verification`, `logentry`,
  `logentry_crypto` and `bookmark`. The entry operations are list, new,
  save, get and delete. The bookmark operations are list, new and delete.
  The `logentry_clean` trigger cascades an entry delete to the entry's
  crypto properties and bookmarks.

The model is functional:
- The database is an immutable record of maps (`Schema.Db`).
- An open backend is a `Session`: the derived key and the database.
- Every operation is a pure function. It returns a new session (and a value),
  or an `Error` for each failure the model covers. The failures it does not
  cover (I/O, and text the byte-string operations cannot encode) are listed
  under "Left out".
- The three library primitives, PBKDF2, the AES block function and
  HMAC-SHA256, are the fields of a `Crypto.Primitives` value. They are
  arbitrary functions, so every theorem holds whatever they compute.
- Counter mode itself is modelled, as XOR with the keystream
  `aes(key, counter + i mod 2^128)`. So "decryption inverts encryption" is
  proved, not assumed.
- Base64 (standard alphabet with `=` padding, section 4 of RFC 4648) is
  modelled concretely, with `Decode(Encode(s)) == Some(s)` proved.

Files:
- `outcomes.dfy`: `Option` and `Result`.
- `bytes.dfy`: bytes, little-endian integers, XOR and hex digests.
- `base64.dfy`: the base64 codec.
- `crypto.dfy`: the primitives, the counter and CTR mode.
- `schema.dfy`: the tables, rowids, scan order and errors.
- `entities.dfy`: `LogEntry`, `Bookmark` and their `__cmp__` orders.
- `unlock.dfy`: creation and unlock.
- `repository.dfy`: the CRUD operations.
- `repository_laws.dfy`: how the operations relate to each other, and the
  consistency invariant they keep.

Conventions the model fixes:
- **Rowids.** A row inserted without a rowid gets one more than the largest
  rowid in its table, or 1 in an empty table. SQLite does this for a rowid
  table without AUTOINCREMENT as long as the largest rowid is below 2^63-1;
  the 64-bit limit is not modelled (see "Left out").
- **Scan order.** `select ... from t;` returns rows in ascending rowid order.
- **Timestamps.** They are integers.
- **Randomness.** The salt and nonces that `Random.new()` would draw are
  parameters.
- **Two behaviours of the code that a reader might not expect:**
  - `new_bookmark` stores any entry id. The `references logentry` clause of
    the `bookmark` table is not enforced, because SQLite does not enforce
    foreign keys by default. The model stores whatever entry id it is given.
  - `save_entry` skips encryption only when the content is `None`. Empty
    content is encrypted, given crypto properties and stored like any other.

## Model

| member | source | states |
|---|---|---|
| `Bytes.LittleEndianIsPositionalSum` | src/lib/StorageBackend.py:198 | the sum of ord(nonce[x]) * 256^x is the nonce read as a little-endian integer |
| `Bytes.LittleEndianBound` | src/lib/StorageBackend.py:198-199 | an n-byte nonce gives a counter value in [0, 256^n) |
| `Bytes.LittleEndianInjective` | src/lib/StorageBackend.py:198 | two nonces of one length give the same counter value only if they are equal |
| `Bytes.Hex` | src/lib/StorageBackend.py:331 | `hexdigest` renders n bytes as 2n characters, every one a lower-case hexadecimal digit |
| `Bytes.HexInjective` | src/lib/StorageBackend.py:377 | comparing hex digests compares the raw digests: distinct digests have distinct hex renderings |
| `Bytes.XorTwice` | src/lib/StorageBackend.py:200 | XOR-ing the same pad twice restores the data, which is why counter-mode encryption and decryption are one operation |
| `Base64.Encode` | src/lib/StorageBackend.py:237-241 | the modelled RFC 4648 encoding of n bytes (the form `encode('base64')` writes, without its line breaks) is 4 * ceil(n / 3) characters of the alphabet, with '=' only in the last two places |
| `Base64.Decode` | src/lib/StorageBackend.py:283-287 | under the modelled strict RFC 4648 decoding, a text that decodes is k groups of four characters and decodes to between 3k - 2 and 3k bytes |
| `Base64.DecodeEncode` | src/lib/StorageBackend.py:396-405 | every byte string stored as base64 decodes back to itself |
| `Base64.EncodeInjective` | src/lib/StorageBackend.py:237-241 | distinct values are stored as distinct base64 texts |
| `Crypto.DeriveKey` | src/lib/StorageBackend.py:189-190 | `_get_key` yields an AES_KEY_SIZE (32-byte) key, whatever the passphrase, salt and iteration count |
| `Crypto.CounterStart` | src/lib/StorageBackend.py:195-199 | the initial counter value is the positional sum of the nonce bytes, below 256^len(nonce), and below 2^128 for a 16-byte nonce |
| `Crypto.CounterModulus` | src/lib/StorageBackend.py:199 | a counter of AES.block_size * 8 bits wraps at 256^16 = 2^128 |
| `Crypto.CounterStartInjective` | src/lib/StorageBackend.py:198-199 | distinct nonces of one length start distinct counters |
| `Crypto.Keystream` | src/lib/StorageBackend.py:199-200 | n keystream bytes, byte i being byte i mod 16 of AES applied to the counter value i / 16 steps after the initial one, modulo 2^128 |
| `Crypto.Ctr` | src/lib/StorageBackend.py:195-201 | counter-mode encryption and decryption keep the length, and byte i of the output is byte i of the input XOR byte i mod 16 of AES applied to the counter value i / 16 steps after the nonce's |
| `Crypto.CtrRoundTrip` | src/lib/StorageBackend.py:379-381 | decrypting under the key and nonce used to encrypt gives back the plaintext, whatever the block cipher |
| `Crypto.HexDigest` | src/lib/StorageBackend.py:329-331 | the stored MAC is 64 lower-case hexadecimal digits, the rendering of the 32-byte HMAC-SHA256 digest |
| `Crypto.HexDigestMatch` | src/lib/StorageBackend.py:375-377 | two hex digests are equal exactly when the raw MACs are, so `get_entry` compares MACs |
| `Schema.FirstMissing` | src/lib/StorageBackend.py:273-275 | the reported field is the first field, in checking order, that the property bag lacks; None exactly when all are present |
| `Schema.NextRowId` | src/lib/StorageBackend.py:306-312 | `lastrowid` of an insert is fresh, above every existing rowid, and 1 in an empty table |
| `Schema.RowIdOrder` | src/lib/StorageBackend.py:294-300 | a full scan returns each row of the table once, in strictly ascending rowid order |
| `Schema.RowIdOrderAppend` | src/lib/StorageBackend.py:308-309 | a row inserted above every rowid comes last in the next scan |
| `Schema.RowIdOrderUnique` | src/lib/StorageBackend.py:294-300 | the scan order is the only strictly increasing listing of the table's rowids |
| `Entities.CompareEntries` | src/lib/StorageBackend.py:54-55 | entries compare by creation time only: negative, zero or positive exactly as ctime is less, equal or greater |
| `Entities.CompareBookmarks` | src/lib/StorageBackend.py:71-72 | bookmarks compare by text only: zero exactly when the texts are equal, and swapping the operands negates the result (which text sorts first is `CompareBookmarksFirstDifference`) |
| `Entities.CompareBytesEqual` | src/lib/StorageBackend.py:72 | Python 2 `cmp` on byte strings is zero exactly when they are equal |
| `Entities.CompareBytesAntisymmetric` | src/lib/StorageBackend.py:72 | swapping the operands of `cmp` on byte strings negates it |
| `Entities.CompareBytesTransitive` | src/lib/StorageBackend.py:72 | `cmp` on byte strings is transitive |
| `Entities.CompareBytesFirstDifference` | src/lib/StorageBackend.py:72 | of two byte strings that agree up to position k and differ there, the one with the smaller byte at k compares as less |
| `Entities.ComparePrefix` | src/lib/StorageBackend.py:72 | a text sorts no later than any text it is a prefix of |
| `Entities.CompareBookmarksFirstDifference` | src/lib/StorageBackend.py:71-72 | of two bookmarks whose texts first differ at position k, the one with the smaller byte there sorts first, and the other sorts after it |
| `Entities.CompareBookmarksTransitive` | src/lib/StorageBackend.py:71-72 | the bookmark order is transitive, so sorting bookmarks by text is well defined |
| `Unlock.VerificationTable` | src/lib/StorageBackend.py:235-242 | the table written at creation holds exactly the six verification properties |
| `Unlock.ReadVerification` | src/lib/StorageBackend.py:273-288 | a missing field (the first one in checking order), then an unknown kdf, then an unknown cipher is reported before anything else; the table is accepted exactly when all six fields are present, the names are recognised, salt, nonce and verifier decode and the iteration count is an integer; success yields exactly the decoded salt, nonce and verifier and the stored iteration count; a salt, nonce or verifier that does not decode, or an iteration count stored as text, is reported as `Undecodable` with that field's name (in the order salt, iterations, nonce, verifier), which keeps it apart from the backend's own kdf and cipher errors, as the library exception the source raises there is apart from `StorageBackend.Error` |
| `Unlock.ReadWrittenTable` | src/lib/StorageBackend.py:235-242 | the verification table written at creation reads back as the salt, iteration count, nonce and verifier written |
| `Unlock.Create` | src/lib/StorageBackend.py:229-253 | creation derives the key from the fresh salt and 20000 iterations, leaves the entry and bookmark tables empty, and writes exactly the six-property verification table of the fresh salt, the fresh nonce and the reference text encrypted under the key, a record that certifies the key |
| `Unlock.Unlock` | src/lib/StorageBackend.py:273-290 | table errors pass through unchanged; otherwise the result is Ok exactly when the verifier decrypts to the reference text under the derived key, and WrongPassphrase when it does not; success keeps the database and certifies the key |
| `Unlock.Open` | src/lib/StorageBackend.py:214-290 | with no store the outcome is the store created from the passphrase given, with empty tables; with a store its outcome is exactly that of the unlock, which keeps the store unchanged; any success certifies the key |
| `Unlock.CreateThenUnlock` | src/lib/StorageBackend.py:230-290 | a store created with a passphrase unlocks with that passphrase, giving back the created session |
| `Unlock.ReopenCreatedStore` | src/lib/StorageBackend.py:284-290 | another passphrase unlocks a created store exactly when its key decrypts the verifier to the reference text, and is otherwise refused as a wrong passphrase; any passphrase deriving the same key unlocks it |
| `Unlock.MalformedTableRejected` | src/lib/StorageBackend.py:273-281 | a table that fails the checks is rejected with the same error, never WrongPassphrase, whatever the passphrase and whatever the primitives: the outcome depends on neither |
| `Unlock.UnlockDependsOnlyOnDerivedKey` | src/lib/StorageBackend.py:284-290 | two passphrases deriving the same key cannot be told apart by the unlock |
| `Repository.EntryListingSpec` | src/lib/StorageBackend.py:293-302 | `list_entries` holds every row once in ascending rowid order, each with its row's timestamps and no content |
| `Repository.EntryListingMember` | src/lib/StorageBackend.py:293-302 | an entry is listed exactly when its id is a row and it carries that row's timestamps and no content |
| `Repository.ListEntries` | src/lib/StorageBackend.py:293-302 | `list_entries` returns the entries in scan order (their ids are the ascending rowids), each with its row's timestamps and no content |
| `Repository.NewEntry` | src/lib/StorageBackend.py:305-312 | the new id is fresh and above every existing one; the entry has ctime = mtime = now and no content; only that row is added |
| `Repository.CryptoRecord` | src/lib/StorageBackend.py:333-338 | the crypto properties are exactly cipher, nonce, hmac and digest, with the cipher and MAC names, the base64 nonce and the digest |
| `Repository.Seal` | src/lib/StorageBackend.py:327-342 | the stored text decodes to the counter-mode ciphertext, and the properties record the nonce and the hex HMAC of that ciphertext |
| `Repository.SaveEntry` | src/lib/StorageBackend.py:315-320 | saving fails, with the session untouched, exactly when the id is not in `logentry` |
| `Repository.SealContent` | src/lib/StorageBackend.py:324-342 | no text and no crypto properties are written for None content, and both are written for any other content |
| `Repository.SaveExisting` | src/lib/StorageBackend.py:321-346 | the saved entry's row stays; its data column is NULL exactly when the content is None, and it has crypto properties exactly when content is present |
| `Repository.SaveExistingFrame` | src/lib/StorageBackend.py:321-346 | a save changes the entry's row and crypto properties and nothing else |
| `Repository.SaveExistingWrites` | src/lib/StorageBackend.py:321-346 | the row gets the entry's timestamps; the data column is null exactly when the content is None; crypto properties exist exactly when content does, and are those of the sealed content |
| `Repository.CheckCryptoProps` | src/lib/StorageBackend.py:366-371 | the metadata passes exactly when all four fields are present with the recognised cipher and MAC names; a missing field is reported first, in checking order; with all fields present, an unknown cipher or MAC name gives UnknownCipherOrHmac |
| `Repository.GetEntry` | src/lib/StorageBackend.py:350-384 | an unknown id gives EntryNotFound; content is returned only after the metadata checks and a matching digest, and is the decryption of the stored ciphertext under the recorded nonce; metadata errors and digest mismatches are reported as such; conversely an entry whose metadata passes, whose data and nonce decode (whatever the nonce's length) and whose digest matches loads; after the metadata checks, data that does not decode gives `Undecodable("data")`, and a nonce that does not decode after a matching digest gives `Undecodable("nonce")`, never a backend error; an entry with no content loads as its row |
| `Repository.DelEntry` | src/lib/StorageBackend.py:181-187 | deleting an existing entry removes its row, its crypto properties and exactly the bookmarks referring to it; other rows are untouched; deleting an absent id changes nothing |
| `Repository.ReadRowsSpec` | src/lib/StorageBackend.py:396-397 | decoding yields one bookmark per row in order, each with the row's entry and decoded text |
| `Repository.ReadRowsMember` | src/lib/StorageBackend.py:396-397 | a bookmark is among the decoded rows exactly when its id is one of them and it is what its row decodes to |
| `Repository.BookmarkListing` | src/lib/StorageBackend.py:392-398 | reading a bookmark table succeeds exactly when every row's text is readable, and fails with the decoding error otherwise |
| `Repository.BookmarkListingOutcome` | src/lib/StorageBackend.py:392-398 | `list_bookmarks` succeeds exactly when every stored text is base64, and otherwise fails with the decoding error |
| `Repository.BookmarkListingOrder` | src/lib/StorageBackend.py:394-395 | a successful bookmark listing holds every row once, in ascending rowid order |
| `Repository.BookmarkListingRows` | src/lib/StorageBackend.py:396-397 | each listed bookmark carries its row's entry and the bytes its row's text decodes to |
| `Repository.BookmarkListingMember` | src/lib/StorageBackend.py:392-398 | a bookmark is listed exactly when its id is a row and it is what that row decodes to |
| `Repository.ListBookmarks` | src/lib/StorageBackend.py:392-398 | `list_bookmarks` succeeds exactly when every stored text is base64, fails with the decoding error otherwise, and on success lists the bookmarks in ascending rowid order |
| `Repository.NewBookmark` | src/lib/StorageBackend.py:401-408 | the new id is fresh and above every existing one; the row stores the entry id as given (unchecked) and the base64 text; only that row is added |
| `Repository.DelBookmark` | src/lib/StorageBackend.py:411-413 | only the bookmark with that id is removed; other rows and tables are untouched |
| `RepositoryLaws.SaveThenGet` | src/lib/StorageBackend.py:321-384 | saving an existing entry and loading it back gives the saved entry, content included |
| `RepositoryLaws.GetEntryFrame` | src/lib/StorageBackend.py:350-384 | a load depends only on the key, the entry's row and its crypto properties |
| `RepositoryLaws.SaveKeepsOtherEntries` | src/lib/StorageBackend.py:343-346 | saving one entry leaves every other entry loading as before |
| `RepositoryLaws.TamperedDigestRejected` | src/lib/StorageBackend.py:374-378 | replacing a loadable entry's recorded digest with any other text makes the load fail with DigestMismatch |
| `RepositoryLaws.DigestCheckedBeforeDecryption` | src/lib/StorageBackend.py:374-381 | when the digest does not match, the outcome is DigestMismatch whatever the block cipher, so nothing is decrypted |
| `RepositoryLaws.NewEntryThenGet` | src/lib/StorageBackend.py:305-312 | a new entry loads back as returned, without content |
| `RepositoryLaws.EntryListingAppend` | src/lib/StorageBackend.py:308-309 | a row added above every rowid is listed last |
| `RepositoryLaws.NewEntryThenList` | src/lib/StorageBackend.py:293-312 | listing after `new_entry` gives the earlier listing followed by the new entry |
| `RepositoryLaws.DelEntryThenGet` | src/lib/StorageBackend.py:387-389 | a deleted entry is no longer found |
| `RepositoryLaws.DelEntryIdempotent` | src/lib/StorageBackend.py:387-389 | deleting an entry twice is deleting it once |
| `RepositoryLaws.DelEntryKeepsOtherEntries` | src/lib/StorageBackend.py:181-187 | deleting one entry leaves every other entry loading as before |
| `RepositoryLaws.DelEntryThenList` | src/lib/StorageBackend.py:387-389 | listing after `del_entry` gives the earlier listing without the deleted entry |
| `RepositoryLaws.DelEntryCascade` | src/lib/StorageBackend.py:185 | after an entry is deleted no listed bookmark refers to it, and every bookmark of another entry is still listed |
| `RepositoryLaws.NewBookmarkTextRoundTrip` | src/lib/StorageBackend.py:405 | a new bookmark's stored text decodes back to the text given |
| `RepositoryLaws.BookmarkListingAppend` | src/lib/StorageBackend.py:404-406 | a decodable row added above every rowid is listed last |
| `RepositoryLaws.AllReadableWithRow` | src/lib/StorageBackend.py:396 | adding a decodable row does not change whether the bookmark listing succeeds |
| `RepositoryLaws.NewBookmarkThenList` | src/lib/StorageBackend.py:392-408 | listing after `new_bookmark` gives the earlier listing followed by the new bookmark, whose text survives the base64 round trip; a failing listing still fails |
| `RepositoryLaws.DelBookmarkThenList` | src/lib/StorageBackend.py:411-413 | listing after `del_bookmark` gives the earlier listing without the deleted bookmark |
| `RepositoryLaws.DelBookmarkIdempotent` | src/lib/StorageBackend.py:411-413 | deleting a bookmark twice is deleting it once |
| `RepositoryLaws.DelBookmarkKeepsEntries` | src/lib/StorageBackend.py:411-413 | deleting a bookmark changes no entry listing and no load |
| `RepositoryLaws.ConsistentListBookmarks` | src/lib/StorageBackend.py:392-398 | in a consistent store the bookmark listing succeeds |
| `RepositoryLaws.CreateConsistent` | src/lib/StorageBackend.py:229-253 | a newly created store is consistent: certified key, no entries and no bookmarks |
| `RepositoryLaws.NewEntryConsistent` | src/lib/StorageBackend.py:305-312 | `new_entry` keeps the store consistent |
| `RepositoryLaws.SaveEntryConsistent` | src/lib/StorageBackend.py:315-347 | a successful `save_entry` keeps the store consistent, so every entry still loads |
| `RepositoryLaws.DelEntryConsistent` | src/lib/StorageBackend.py:387-389 | `del_entry` keeps the store consistent |
| `RepositoryLaws.NewBookmarkConsistent` | src/lib/StorageBackend.py:401-408 | `new_bookmark` keeps the store consistent |
| `RepositoryLaws.DelBookmarkConsistent` | src/lib/StorageBackend.py:411-413 | `del_bookmark` keeps the store consistent |

"Consistent" (`RepositoryLaws.Consistent`) means:
- the session key is certified by the verification record;
- crypto properties exist only for entries with content;
- every entry loads;
- every bookmark text is base64.

## Left out

- Filesystem work is not modelled: the database path, directory creation and
  the readable/writable checks (`src/lib/StorageBackend.py:150`, `205-206`,
  `217-227`, `259-261`), and `ConfigError`. `first_run` becomes "no store
  given" (`Unlock.FirstRun`).
- SQLite I/O is not modelled: connecting, cursors, commits and their
  failures. The database is an in-memory value, so every operation is atomic
  by construction and `StoreIOError` does not arise.
- `datetime.utcnow()`: the clock is the `now` parameter of
  `Repository.NewEntry`, and timestamps are integers.
- `Random.new()`: salts and nonces are parameters. Their freshness (a nonce
  never reused) is not modelled.
- The internals of PBKDF2, AES and HMAC-SHA256 are foreign library code.
  They are arbitrary functions in `Crypto.Primitives`.
- The MAC is keyed with the encryption key, as in the code. The model keeps
  this and does not reason about it.
- `Crypto.Keystream`, `Crypto.Ctr`: the counter wraps modulo 2^128. PyCrypto's
  `Counter.new` without `allow_wraparound` would instead raise when the
  counter wraps inside one message. That needs a nonce within
  len(data)/16 of 2^128.
- `Base64.Encode`, `Base64.Decode`: Python 2's codec differs.
  `encode('base64')` breaks lines every 76 characters and adds a final
  newline, and `decode('base64')` skips characters outside the alphabet. The model writes RFC 4648 text without
  line breaks and rejects anything else. Both round-trip the bytes, which is
  all the backend relies on. A stored text the lenient decoder accepts but
  the model rejects is outside the model.
- Decoding failures raise library exceptions (`binascii.Error`, or
  `AttributeError` on a non-text value). In the model they are
  `Undecodable(field)` errors. The same goes for an integer `iterations`
  field that is stored as text.
- Order of steps inside the unlock. The model decodes the salt, nonce and
  verifier (`Unlock.ReadVerification`) before it derives the key. The
  source decodes the nonce and verifier just after `_get_key`
  (`src/lib/StorageBackend.py:284-288`). Derivation is a pure function, so
  the result and the error reported are the same either way.
- The `_SafetyNet` decorator is commented out in the source. The abstract
  `StorageBackend` class only raises `NotImplementedError`.
- `Schema.NextRowId`: rowids are unbounded integers. SQLite rowids are 64-bit:
  once the largest rowid is 2^63-1, SQLite picks an unused rowid at random
  or fails with SQLITE_FULL, while the model returns 2^63. The backend never
  inserts an explicit rowid, so a table would need 2^63-1 inserts to get
  there.
- `Repository.SaveEntry`: entry content is a byte string. The presentation
  layer passes the text of a Tk widget (`src/lib/GUI.py:289`), which is a
  Python 2 `unicode` value when it holds non-ASCII characters. Then
  `cipher.encrypt(entry.data)` (`src/lib/StorageBackend.py:328`) raises
  `UnicodeEncodeError`. The model has no such failure. It also does not
  model that the failure comes after `delete from logentry_crypto`
  (`src/lib/StorageBackend.py:321-323`) has run in the open transaction, so
  that the next commit leaves the stored ciphertext without its crypto
  properties.
- `Repository.NewBookmark`: bookmark text is a byte string and the model
  never fails. Text from the bookmark dialog (`src/lib/GUI.py:339-345`) is
  `unicode` when it holds non-ASCII characters, and `text.encode('base64')`
  (`src/lib/StorageBackend.py:405`) then raises `UnicodeEncodeError`.
- `GUI.py`, `src/lib/GUI.py` and `setup.py` are not part of this model. The
  sorting the GUI applies is represented only by the `__cmp__` orders
  (`Entities`).

=== FILE: base64.dfy ===
/** The base64 text encoding the backend applies to every binary value it
    stores (salt, nonce, verifier, ciphertext, bookmark text), following the
    standard alphabet and '=' padding of section 4 of RFC 4648. */
module Base64 {
  import opened Bytes
  import opened Outcomes

  /** The character that stands for a 6-bit value. */
  function Symbol(v: byte): (c: char)
    requires v < 64
  {
    if v < 26 then ('A' as int + v as int) as char
    else if v < 52 then ('a' as int + v as int - 26) as char
    else if v < 62 then ('0' as int + v as int - 52) as char
    else if v == 62 then '+'
    else '/'
  }

  /** The 6-bit value a character stands for, if it is in the alphabet. */
  function Index(c: char): (r: Option<byte>)
    ensures r.Some? ==> r.value < 64
  {
    if 'A' <= c <= 'Z' then Some((c as int - 'A' as int) as byte)
    else if 'a' <= c <= 'z' then Some((c as int - 'a' as int + 26) as byte)
    else if '0' <= c <= '9' then Some((c as int - '0' as int + 52) as byte)
    else if c == '+' then Some(62)
    else if c == '/' then Some(63)
    else None
  }

  /** Every symbol reads back as its value and is never the pad character. */
  lemma IndexOfSymbol(v: byte)
    requires v < 64
    ensures Index(Symbol(v)) == Some(v)
    ensures Symbol(v) != '='
  {
  }

  /** Four symbols for three bytes. */
  function Quad(b0: byte, b1: byte, b2: byte): (q: string)
    ensures |q| == 4
    ensures forall j :: 0 <= j < 4 ==> Index(q[j]).Some?
  {
    var v0, v1, v2, v3 := b0 / 4, b0 % 4 * 16 + b1 / 16, b1 % 16 * 4 + b2 / 64, b2 % 64;
    IndexOfSymbol(v0);
    IndexOfSymbol(v1);
    IndexOfSymbol(v2);
    IndexOfSymbol(v3);
    [Symbol(v0), Symbol(v1), Symbol(v2), Symbol(v3)]
  }

  /** Every character is in the alphabet, except '=' padding in the last
      two places. */
  predicate WellPadded(t: string)
  {
    forall i :: 0 <= i < |t| ==> Index(t[i]).Some? || (t[i] == '=' && |t| - 2 <= i)
  }

  /** A full group in front of a well-padded text keeps it well padded. */
  lemma WellPaddedPrefix(q: string, rest: string)
    requires |q| == 4 && forall j :: 0 <= j < 4 ==> Index(q[j]).Some?
    requires WellPadded(rest)
    ensures WellPadded(q + rest)
  {
    var t := q + rest;
    forall i | 0 <= i < |t|
      ensures Index(t[i]).Some? || (t[i] == '=' && |t| - 2 <= i)
    {
      if i >= 4 {
        assert t[i] == rest[i - 4];
      }
    }
  }

  /** The last group of a byte string whose length is not a multiple of
      three: one byte gives two symbols and "==", two bytes give three
      symbols and "=". */
  function PaddedGroup(s: seq<byte>): (q: string)
    requires 1 <= |s| <= 2
    ensures |q| == 4 && WellPadded(q)
  {
    if |s| == 1 then
      var v0, v1 := s[0] / 4, s[0] % 4 * 16;
      IndexOfSymbol(v0);
      IndexOfSymbol(v1);
      [Symbol(v0), Symbol(v1), '=', '=']
    else
      var v0, v1, v2 := s[0] / 4, s[0] % 4 * 16 + s[1] / 16, s[1] % 16 * 4;
      IndexOfSymbol(v0);
      IndexOfSymbol(v1);
      IndexOfSymbol(v2);
      [Symbol(v0), Symbol(v1), Symbol(v2), '=']
  }

  /** Base64 text of a byte string: one group of four characters per three
      bytes, the last group padded with '='. */
  function Encode(s: seq<byte>): (t: string)
    ensures |t| == 4 * ((|s| + 2) / 3)
    ensures WellPadded(t)
  {
    if |s| == 0 then ""
    else if |s| <= 2 then PaddedGroup(s)
    else
      WellPaddedPrefix(Quad(s[0], s[1], s[2]), Encode(s[3..]));
      Quad(s[0], s[1], s[2]) + Encode(s[3..])
  }

  /** The bytes of a full group of four symbols. */
  function DecodeQuad(c0: char, c1: char, c2: char, c3: char): Option<seq<byte>>
  {
    match (Index(c0), Index(c1), Index(c2), Index(c3))
    case (Some(a), Some(b), Some(c), Some(d)) =>
      Some([a * 4 + b / 16, b % 16 * 16 + c / 4, c % 4 * 64 + d])
    case _ => None
  }

  /** The bytes of a last group that ends in padding: "xy==" holds one byte,
      "xyz=" holds two. */
  function DecodePadded(c0: char, c1: char, c2: char): Option<seq<byte>>
  {
    match (Index(c0), Index(c1))
    case (Some(a), Some(b)) =>
      if c2 == '=' then Some([a * 4 + b / 16])
      else (
        match Index(c2)
        case Some(c) => Some([a * 4 + b / 16, b % 16 * 16 + c / 4])
        case None => None
      )
    case _ => None
  }

  /** The bytes a base64 text stands for; None when the text is not
      well-formed base64. */
  function Decode(t: string): (r: Option<seq<byte>>)
    ensures r.Some? ==> |t| % 4 == 0 && |t| / 4 * 3 <= |r.value| + 2 && |r.value| <= |t| / 4 * 3
  {
    if |t| == 0 then Some([])
    else if |t| < 4 then None
    else if |t| == 4 && t[3] == '=' then DecodePadded(t[0], t[1], t[2])
    else
      match (DecodeQuad(t[0], t[1], t[2], t[3]), Decode(t[4..]))
      case (Some(group), Some(rest)) => Some(group + rest)
      case _ => None
  }

  lemma SplitOne(b0: byte)
    ensures b0 / 4 * 4 + b0 % 4 * 16 / 16 == b0
  {
  }

  lemma SplitTwo(b0: byte, b1: byte)
    ensures var b := b0 % 4 * 16 + b1 / 16;
      && b0 / 4 * 4 + b / 16 == b0
      && b % 16 * 16 + b1 % 16 * 4 / 4 == b1
  {
  }

  lemma SplitThree(b0: byte, b1: byte, b2: byte)
    ensures var b, c := b0 % 4 * 16 + b1 / 16, b1 % 16 * 4 + b2 / 64;
      && b0 / 4 * 4 + b / 16 == b0
      && b % 16 * 16 + c / 4 == b1
      && c % 4 * 64 + b2 % 64 == b2
  {
  }

  lemma DecodeLastGroup(t: string)
    requires |t| == 4 && t[3] == '='
    ensures Decode(t) == DecodePadded(t[0], t[1], t[2])
  {
  }

  lemma DecodeFirstGroup(t: string, group: seq<byte>, rest: seq<byte>)
    requires |t| >= 4 && t[3] != '='
    requires DecodeQuad(t[0], t[1], t[2], t[3]) == Some(group)
    requires Decode(t[4..]) == Some(rest)
    ensures Decode(t) == Some(group + rest)
  {
  }

  lemma DecodeOneByte(b0: byte)
    ensures Decode(Encode([b0])) == Some([b0])
  {
    var a, b := b0 / 4, b0 % 4 * 16;
    IndexOfSymbol(a);
    IndexOfSymbol(b);
    var t := Encode([b0]);
    assert t == [Symbol(a), Symbol(b), '=', '='];
    DecodeLastGroup(t);
    SplitOne(b0);
  }

  lemma DecodeTwoBytes(b0: byte, b1: byte)
    ensures Decode(Encode([b0, b1])) == Some([b0, b1])
  {
    var a, b, c := b0 / 4, b0 % 4 * 16 + b1 / 16, b1 % 16 * 4;
    IndexOfSymbol(a);
    IndexOfSymbol(b);
    IndexOfSymbol(c);
    var t := Encode([b0, b1]);
    assert t == [Symbol(a), Symbol(b), Symbol(c), '='];
    DecodeLastGroup(t);
    SplitTwo(b0, b1);
  }

  lemma DecodeFullGroup(b0: byte, b1: byte, b2: byte)
    ensures var q := Quad(b0, b1, b2);
      DecodeQuad(q[0], q[1], q[2], q[3]) == Some([b0, b1, b2]) && q[3] != '='
  {
    IndexOfSymbol(b0 / 4);
    IndexOfSymbol(b0 % 4 * 16 + b1 / 16);
    IndexOfSymbol(b1 % 16 * 4 + b2 / 64);
    IndexOfSymbol(b2 % 64);
    SplitThree(b0, b1, b2);
  }

  /** A full group in front of a well-formed text decodes to its three
      bytes in front of what the text decodes to. */
  lemma DecodeQuadPrefix(b0: byte, b1: byte, b2: byte, rest: string, tail: seq<byte>)
    requires Decode(rest) == Some(tail)
    ensures Decode(Quad(b0, b1, b2) + rest) == Some([b0, b1, b2] + tail)
  {
    var q := Quad(b0, b1, b2);
    var t := q + rest;
    DecodeFullGroup(b0, b1, b2);
    assert t[0] == q[0] && t[1] == q[1] && t[2] == q[2] && t[3] == q[3];
    assert t[4..] == rest;
    DecodeFirstGroup(t, [b0, b1, b2], tail);
  }

  /** Decoding inverts encoding: every stored value reads back unchanged. */
  lemma {:induction false} DecodeEncode(s: seq<byte>)
    ensures Decode(Encode(s)) == Some(s)
  {
    if |s| == 1 {
      DecodeOneByte(s[0]);
      assert s == [s[0]];
    } else if |s| == 2 {
      DecodeTwoBytes(s[0], s[1]);
      assert s == [s[0], s[1]];
    } else if |s| >= 3 {
      DecodeEncode(s[3..]);
      DecodeEncodeStep(s);
    }
  }

  /** One full group in front of a tail that already round-trips. */
  lemma DecodeEncodeStep(s: seq<byte>)
    requires |s| >= 3 && Decode(Encode(s[3..])) == Some(s[3..])
    ensures Decode(Encode(s)) == Some(s)
  {
    assert Encode(s) == Quad(s[0], s[1], s[2]) + Encode(s[3..]);
    DecodeQuadPrefix(s[0], s[1], s[2], Encode(s[3..]), s[3..]);
    FirstThree(s);
  }

  lemma FirstThree<T>(s: seq<T>)
    requires |s| >= 3
    ensures s == [s[0], s[1], s[2]] + s[3..]
  {
  }

  /** Encoding is injective: distinct values are stored as distinct texts. */
  lemma EncodeInjective(a: seq<byte>, b: seq<byte>)
    requires Encode(a) == Encode(b)
    ensures a == b
  {
    DecodeEncode(a);
    DecodeEncode(b);
  }
}

=== FILE: bytes.dfy ===
/** Byte strings: Python 2 `str` values as the storage backend handles them
    (nonces, salts, ciphertexts, bookmark texts). */
module Bytes {

  /** An octet, as Python's `ord` sees it. */
  newtype byte = x: int | 0 <= x < 256

  /** 256 to the power n. */
  function Pow256(n: nat): (p: nat)
    ensures p >= 1
  {
    if n == 0 then 1 else 256 * Pow256(n - 1)
  }

  /** The unsigned integer whose little-endian encoding is `s`: the first
      byte is the least significant one. */
  function LittleEndian(s: seq<byte>): nat
  {
    if |s| == 0 then 0 else s[0] as nat + 256 * LittleEndian(s[1..])
  }

  /** The same value written the way `_get_cipher_nonce` computes it: the sum
      of ord(s[x]) * 256^x over every position x, accumulated from the left. */
  function PositionalSum(s: seq<byte>): nat
  {
    if |s| == 0 then 0
    else PositionalSum(s[..|s| - 1]) + s[|s| - 1] as nat * Pow256(|s| - 1)
  }

  lemma {:induction false} LittleEndianSnoc(s: seq<byte>, b: byte)
    ensures LittleEndian(s + [b]) == LittleEndian(s) + b as nat * Pow256(|s|)
  {
    if |s| == 0 {
      assert (s + [b])[1..] == [];
    } else {
      var rest, x, p := LittleEndian(s[1..]), b as nat, Pow256(|s| - 1);
      assert (s + [b])[0] == s[0];
      assert (s + [b])[1..] == s[1..] + [b];
      LittleEndianSnoc(s[1..], b);
      var t := x * p;
      assert LittleEndian(s[1..] + [b]) == rest + t;
      assert LittleEndian(s + [b]) == s[0] as nat + 256 * (rest + t);
      assert x * Pow256(|s|) == 256 * t by {
        assert Pow256(|s|) == 256 * p;
        MulShift(x, p);
      }
    }
  }

  lemma MulShift(x: nat, p: nat)
    ensures x * (256 * p) == 256 * (x * p)
  {
  }

  /** The recursive definition agrees with the positional sum. */
  lemma {:induction false} LittleEndianIsPositionalSum(s: seq<byte>)
    ensures LittleEndian(s) == PositionalSum(s)
  {
    if |s| > 0 {
      var init := s[..|s| - 1];
      LittleEndianIsPositionalSum(init);
      assert init + [s[|s| - 1]] == s;
      LittleEndianSnoc(init, s[|s| - 1]);
    }
  }

  /** An n-byte string encodes a value in [0, 256^n). */
  lemma {:induction false} LittleEndianBound(s: seq<byte>)
    ensures LittleEndian(s) < Pow256(|s|)
  {
    if |s| > 0 {
      LittleEndianBound(s[1..]);
    }
  }

  /** Two byte strings of the same length encode the same value only if they
      are equal. */
  lemma {:induction false} LittleEndianInjective(a: seq<byte>, b: seq<byte>)
    requires |a| == |b|
    requires LittleEndian(a) == LittleEndian(b)
    ensures a == b
  {
    if |a| > 0 {
      var x, y := LittleEndian(a[1..]), LittleEndian(b[1..]);
      var a0, b0 := a[0] as int, b[0] as int;
      assert a0 + 256 * x == b0 + 256 * y;
      assert 0 <= a0 < 256 && 0 <= b0 < 256;
      assert x == y;
      LittleEndianInjective(a[1..], b[1..]);
      assert a == [a[0]] + a[1..] && b == [b[0]] + b[1..];
    }
  }

  /** 2 to the power n. */
  function Pow2(n: nat): (p: nat)
    ensures p >= 1
  {
    if n == 0 then 1 else 2 * Pow2(n - 1)
  }

  /** Exclusive or of the low n bits of a and b, bit by bit from the least
      significant one. */
  function XorBits(a: nat, b: nat, n: nat): (r: nat)
    ensures r < Pow2(n)
  {
    if n == 0 then 0 else (a + b) % 2 + 2 * XorBits(a / 2, b / 2, n - 1)
  }

  /** One step of `XorBits`: the low bit, and the remaining bits shifted down. */
  lemma XorBitsStep(a: nat, mask: nat, n: nat)
    requires n > 0
    ensures XorBits(a, mask, n) % 2 == (a + mask) % 2
    ensures XorBits(a, mask, n) / 2 == XorBits(a / 2, mask / 2, n - 1)
  {
  }

  lemma ParityCancel(x: nat, a: nat, mask: nat)
    requires x % 2 == (a + mask) % 2
    ensures (x + mask) % 2 == a % 2
  {
    var xq, aq, mq := x / 2, a / 2, mask / 2;
    assert x == 2 * xq + x % 2 && a == 2 * aq + a % 2 && mask == 2 * mq + mask % 2;
  }

  /** Applying the same n-bit mask twice restores any n-bit value. */
  lemma {:induction false} XorBitsTwice(a: nat, mask: nat, n: nat)
    requires a < Pow2(n)
    ensures XorBits(XorBits(a, mask, n), mask, n) == a
  {
    if n > 0 {
      var x := XorBits(a, mask, n);
      var y := XorBits(x, mask, n);
      XorBitsStep(a, mask, n);
      XorBitsStep(x, mask, n);
      XorBitsTwice(a / 2, mask / 2, n - 1);
      ParityCancel(x, a, mask);
      assert y == 2 * (y / 2) + y % 2;
      assert a == 2 * (a / 2) + a % 2;
    }
  }

  function XorByte(a: byte, b: byte): byte
  {
    assert Pow2(8) == 256;
    XorBits(a as nat, b as nat, 8) as byte
  }

  /** Byte-wise exclusive or of two strings of equal length. */
  function Xor(a: seq<byte>, b: seq<byte>): (r: seq<byte>)
    requires |a| == |b|
    ensures |r| == |a|
  {
    seq(|a|, i requires 0 <= i < |a| => XorByte(a[i], b[i]))
  }

  /** XOR-ing the same pad twice gives back the original string. */
  lemma XorTwice(a: seq<byte>, pad: seq<byte>)
    requires |a| == |pad|
    ensures Xor(Xor(a, pad), pad) == a
  {
    var r := Xor(Xor(a, pad), pad);
    forall i | 0 <= i < |a|
      ensures r[i] == a[i]
    {
      assert Pow2(8) == 256;
      XorBitsTwice(a[i] as nat, pad[i] as nat, 8);
    }
  }

  /** Lower-case hexadecimal digit of a value below 16. */
  function HexDigit(v: byte): (c: char)
    requires v < 16
  {
    if v < 10 then ('0' as int + v as int) as char
    else ('a' as int + v as int - 10) as char
  }

  /** Whether a character is a lower-case hexadecimal digit. */
  predicate IsHexDigit(c: char)
  {
    '0' <= c <= '9' || 'a' <= c <= 'f'
  }

  /** Lower-case hexadecimal rendering, two digits per byte (`hexdigest`). */
  function Hex(s: seq<byte>): (h: string)
    ensures |h| == 2 * |s|
    ensures forall i :: 0 <= i < |h| ==> IsHexDigit(h[i])
  {
    if |s| == 0 then ""
    else [HexDigit(s[0] / 16), HexDigit(s[0] % 16)] + Hex(s[1..])
  }

  /** Distinct byte strings have distinct hex renderings, so comparing hex
      digests is comparing digests. */
  lemma {:induction false} HexInjective(a: seq<byte>, b: seq<byte>)
    requires Hex(a) == Hex(b)
    ensures a == b
  {
    if |a| > 0 {
      var ha, hb := Hex(a), Hex(b);
      assert ha[0] == hb[0] && ha[1] == hb[1];
      assert a[0] / 16 == b[0] / 16 && a[0] % 16 == b[0] % 16;
      assert a[0] == b[0];
      assert Hex(a[1..]) == ha[2..] == hb[2..] == Hex(b[1..]);
      HexInjective(a[1..], b[1..]);
      assert a == [a[0]] + a[1..] && b == [b[0]] + b[1..];
    }
  }

  /** The bytes of a text made of characters below 256 (Python 2 byte
      strings such as the reference text). */
  function Latin1(s: string): (r: seq<byte>)
    requires forall i :: 0 <= i < |s| ==> s[i] as int < 256
    ensures |r| == |s|
    ensures forall i :: 0 <= i < |s| ==> r[i] as int == s[i] as int
  {
    seq(|s|, i requires 0 <= i < |s| => s[i] as int as byte)
  }
}

=== FILE: crypto.dfy ===
/** The cipher envelope of the default backend: AES-256 in counter mode for
    confidentiality, HMAC-SHA256 over the ciphertext for integrity, both keyed
    with the PBKDF2-derived master key.

    The three library primitives are not modelled internally: they are the
    fields of a `Primitives` value, arbitrary functions of the right shape.
    Counter mode itself is modelled, so that decryption inverting encryption
    is a theorem about every block cipher rather than an assumption. */
module Crypto {
  import opened Bytes

  /** AES.block_size: bytes per cipher block, and the nonce length. */
  const BLOCK_SIZE: nat := 16
  /** AES_KEY_SIZE: length of the derived key (AES-256). */
  const KEY_SIZE: nat := 32
  /** SALT_SIZE: length of the PBKDF2 salt drawn at store creation. */
  const SALT_SIZE: nat := 32
  /** PBKDF2_ITERATIONS: iteration count written at store creation. */
  const PBKDF2_ITERATIONS: int := 20000
  /** The counter is AES.block_size * 8 = 128 bits wide. */
  const COUNTER_MODULUS: nat := 0x1_0000_0000_0000_0000_0000_0000_0000_0000

  /** One cipher block. */
  type Block = s: seq<byte> | |s| == BLOCK_SIZE
    witness [0, 0, 0, 0, 0, 0, 0, 0, 0, 0, 0, 0, 0, 0, 0, 0]

  /** SHA256.digest_size: bytes in a raw HMAC-SHA256 digest. */
  const DIGEST_SIZE: nat := 32

  /** A derived master key: AES_KEY_SIZE bytes, the length `_get_key` asks
      PBKDF2 for. */
  type Key = s: seq<byte> | |s| == KEY_SIZE
    witness seq(KEY_SIZE, _ => 0)

  /** A raw HMAC-SHA256 digest. */
  type Digest = s: seq<byte> | |s| == DIGEST_SIZE
    witness seq(DIGEST_SIZE, _ => 0)

  /** The foreign primitives the backend calls into.
      - pbkdf2(passphrase, salt, iterations): the key of AES_KEY_SIZE bytes
        PBKDF2 derives (the backend never asks for another length)
      - aes(key, counter value): the block cipher applied to one 128-bit
        counter block
      - hmacSha256(key, message): the raw digest */
  datatype Primitives = Primitives(
    pbkdf2: (string, seq<byte>, int) -> Key,
    aes: (seq<byte>, nat) -> Block,
    hmacSha256: (seq<byte>, seq<byte>) -> Digest)

  /** `_get_key`: the master key for a passphrase, salt and iteration count,
      long enough for AES-256. */
  function DeriveKey(P: Primitives, passphrase: string, salt: seq<byte>, iterations: int): (k: seq<byte>)
    ensures |k| == KEY_SIZE
  {
    P.pbkdf2(passphrase, salt, iterations)
  }

  /** `_get_cipher_nonce`: the counter's initial value is the nonce read as a
      little-endian integer. A 16-byte nonce always fits the 128-bit counter. */
  function CounterStart(nonce: seq<byte>): (v: nat)
    ensures v < Pow256(|nonce|)
    ensures |nonce| == BLOCK_SIZE ==> v < COUNTER_MODULUS
    ensures v == PositionalSum(nonce)
  {
    LittleEndianBound(nonce);
    LittleEndianIsPositionalSum(nonce);
    CounterModulus();
    LittleEndian(nonce)
  }

  /** 256^16 = 2^128. */
  lemma CounterModulus()
    ensures Pow256(BLOCK_SIZE) == COUNTER_MODULUS
  {
    assert Pow256(4) == 0x1_0000_0000;
    assert Pow256(8) == 0x1_0000_0000_0000_0000;
    assert Pow256(12) == 0x1_0000_0000_0000_0000_0000_0000;
  }

  /** Distinct nonces of one length start distinct counters. */
  lemma CounterStartInjective(n1: seq<byte>, n2: seq<byte>)
    requires |n1| == |n2| && n1 != n2
    ensures CounterStart(n1) != CounterStart(n2)
  {
    if CounterStart(n1) == CounterStart(n2) {
      LittleEndianInjective(n1, n2);
    }
  }

  /** The first n bytes of the counter-mode keystream: the cipher applied to
      counter, counter + 1, ... (modulo 2^128), blocks laid end to end, so
      that byte i is byte i mod 16 of the cipher applied to the (i / 16)-th
      counter value after the first. */
  function Keystream(P: Primitives, key: seq<byte>, counter: nat, n: nat): (ks: seq<byte>)
    ensures |ks| == n
    ensures forall i :: 0 <= i < n ==>
      ks[i] == P.aes(key, (counter + i / BLOCK_SIZE) % COUNTER_MODULUS)[i % BLOCK_SIZE]
    decreases n
  {
    if n == 0 then []
    else
      var block := P.aes(key, counter % COUNTER_MODULUS);
      if n <= BLOCK_SIZE then block[..n]
      else block + Keystream(P, key, counter + 1, n - BLOCK_SIZE)
  }

  /** `cipher.encrypt` / `cipher.decrypt` of a counter-mode cipher built by
      `_get_cipher_nonce(nonce)`: XOR with the keystream. Encryption and
      decryption are the same operation. */
  function Ctr(P: Primitives, key: seq<byte>, nonce: seq<byte>, data: seq<byte>): (out: seq<byte>)
    ensures |out| == |data|
    ensures forall i :: 0 <= i < |data| ==>
      out[i] == XorByte(data[i], P.aes(key, (CounterStart(nonce) + i / BLOCK_SIZE) % COUNTER_MODULUS)[i % BLOCK_SIZE])
  {
    Xor(data, Keystream(P, key, CounterStart(nonce), |data|))
  }

  /** Decrypting with the key and nonce used to encrypt restores the
      plaintext, whatever the block cipher. */
  lemma CtrRoundTrip(P: Primitives, key: seq<byte>, nonce: seq<byte>, data: seq<byte>)
    ensures Ctr(P, key, nonce, Ctr(P, key, nonce, data)) == data
  {
    XorTwice(data, Keystream(P, key, CounterStart(nonce), |data|));
  }

  /** `hmac.hexdigest()` of HMAC-SHA256 keyed with the master key. */
  function HexDigest(P: Primitives, key: seq<byte>, message: seq<byte>): (d: string)
    ensures |d| == 2 * DIGEST_SIZE
    ensures forall i :: 0 <= i < |d| ==> IsHexDigit(d[i])
  {
    Hex(P.hmacSha256(key, message))
  }

  /** Two hex digests are equal exactly when the raw MACs are, so the
      digest comparison in `get_entry` compares MACs. */
  lemma HexDigestMatch(P: Primitives, key: seq<byte>, m1: seq<byte>, m2: seq<byte>)
    ensures HexDigest(P, key, m1) == HexDigest(P, key, m2) <==> P.hmacSha256(key, m1) == P.hmacSha256(key, m2)
  {
    if HexDigest(P, key, m1) == HexDigest(P, key, m2) {
      HexInjective(P.hmacSha256(key, m1), P.hmacSha256(key, m2));
    }
  }
}

=== FILE: entities.dfy ===
/** The values the backend hands to its callers, `LogEntry` and `Bookmark`,
    and the orderings their `__cmp__` methods define (the presentation layer
    sorts entries newest first and bookmarks alphabetically with them). */
module Entities {
  import opened Outcomes
  import opened Bytes
  import opened Schema

  /** A diary entry. `data` is None when the content has not been loaded
      (entries from `list_entries`) or was never saved. */
  datatype LogEntry = LogEntry(id: Id, ctime: int, mtime: int, data: Option<seq<byte>>)

  /** A bookmark to an entry, with its decoded text. */
  datatype Bookmark = Bookmark(id: Id, entry: Id, text: seq<byte>)

  /** Python 2's `cmp` on integers. */
  function CompareInts(a: int, b: int): (c: int)
    ensures c == -1 || c == 0 || c == 1
    ensures c < 0 <==> a < b
    ensures c == 0 <==> a == b
  {
    if a < b then -1 else if a == b then 0 else 1
  }

  /** Python 2's `cmp` on byte strings: the first differing byte decides,
      and a proper prefix comes first. */
  function CompareBytes(a: seq<byte>, b: seq<byte>): (c: int)
    ensures c == -1 || c == 0 || c == 1
  {
    if |a| == 0 then (if |b| == 0 then 0 else -1)
    else if |b| == 0 then 1
    else if a[0] < b[0] then -1
    else if a[0] > b[0] then 1
    else CompareBytes(a[1..], b[1..])
  }

  /** `LogEntry.__cmp__`: entries compare by creation time only. */
  function CompareEntries(x: LogEntry, y: LogEntry): (c: int)
    ensures c < 0 <==> x.ctime < y.ctime
    ensures c == 0 <==> x.ctime == y.ctime
    ensures c > 0 <==> x.ctime > y.ctime
  {
    CompareInts(x.ctime, y.ctime)
  }

  /** `Bookmark.__cmp__`: bookmarks compare by text only. */
  function CompareBookmarks(x: Bookmark, y: Bookmark): (c: int)
    ensures c == 0 <==> x.text == y.text
    ensures c == -CompareBytes(y.text, x.text)
  {
    CompareBytesEqual(x.text, y.text);
    CompareBytesAntisymmetric(x.text, y.text);
    CompareBytes(x.text, y.text)
  }

  /** Byte strings compare equal exactly when they are equal. */
  lemma {:induction false} CompareBytesEqual(a: seq<byte>, b: seq<byte>)
    ensures CompareBytes(a, b) == 0 <==> a == b
  {
    if |a| > 0 && |b| > 0 && a[0] == b[0] {
      CompareBytesEqual(a[1..], b[1..]);
      assert a == [a[0]] + a[1..] && b == [b[0]] + b[1..];
      if a == b {
        assert a[1..] == b[1..];
      }
    }
  }

  /** Swapping the operands negates the comparison. */
  lemma {:induction false} CompareBytesAntisymmetric(a: seq<byte>, b: seq<byte>)
    ensures CompareBytes(a, b) == -CompareBytes(b, a)
  {
    if |a| > 0 && |b| > 0 && a[0] == b[0] {
      CompareBytesAntisymmetric(a[1..], b[1..]);
    }
  }

  /** The byte-string order is transitive. */
  lemma {:induction false} CompareBytesTransitive(a: seq<byte>, b: seq<byte>, c: seq<byte>)
    requires CompareBytes(a, b) <= 0 && CompareBytes(b, c) <= 0
    ensures CompareBytes(a, c) <= 0
  {
    if |a| > 0 && |b| > 0 && |c| > 0 && a[0] == b[0] && b[0] == c[0] {
      CompareBytesTransitive(a[1..], b[1..], c[1..]);
    }
  }

  /** The first differing byte decides: the text with the smaller byte
      there sorts first. */
  lemma {:induction false} CompareBytesFirstDifference(a: seq<byte>, b: seq<byte>, k: nat)
    requires k < |a| && k < |b| && a[..k] == b[..k] && a[k] < b[k]
    ensures CompareBytes(a, b) == -1
  {
    if k > 0 {
      assert a[0] == a[..k][0] == b[..k][0] == b[0];
      assert a[1..][..k - 1] == a[..k][1..] == b[..k][1..] == b[1..][..k - 1];
      CompareBytesFirstDifference(a[1..], b[1..], k - 1);
    }
  }

  /** A prefix of a text sorts no later than the text. */
  lemma {:induction false} ComparePrefix(a: seq<byte>, rest: seq<byte>)
    ensures CompareBytes(a, a + rest) <= 0
  {
    if |a| > 0 {
      assert (a + rest)[1..] == a[1..] + rest;
      ComparePrefix(a[1..], rest);
    }
  }

  /** Of two bookmarks whose texts first differ at position k, the one with
      the smaller byte there sorts first. */
  lemma CompareBookmarksFirstDifference(x: Bookmark, y: Bookmark, k: nat)
    requires k < |x.text| && k < |y.text| && x.text[..k] == y.text[..k] && x.text[k] < y.text[k]
    ensures CompareBookmarks(x, y) < 0 && CompareBookmarks(y, x) > 0
  {
    CompareBytesFirstDifference(x.text, y.text, k);
  }

  /** Bookmarks are totally preordered by text: transitive as well as
      antisymmetric, so sorting a bookmark list is well defined. */
  lemma CompareBookmarksTransitive(x: Bookmark, y: Bookmark, z: Bookmark)
    requires CompareBookmarks(x, y) <= 0 && CompareBookmarks(y, z) <= 0
    ensures CompareBookmarks(x, z) <= 0
  {
    CompareBytesTransitive(x.text, y.text, z.text);
  }
}

=== FILE: outcomes.dfy ===
/** Failure-compatible wrappers used by every operation of the storage backend.
    `Option` stands for Python's `None`-or-value, `Result` for "returns a value
    or raises". Both work with Dafny's `:-` operator. */
module Outcomes {

  datatype Option<+T> = None | Some(value: T)

  datatype Result<+T, +E> = Ok(value: T) | Err(error: E) {

    predicate IsFailure() {
      Err?
    }

    function PropagateFailure<U>(): Result<U, E>
      requires Err?
    {
      Err(error)
    }

    function Extract(): T
      requires Ok?
    {
      value
    }
  }
}

=== FILE: repository.dfy ===
/** The entry and bookmark operations of `DefaultStorageBackend`: listing,
    creating, saving (encrypt then MAC), loading (verify then decrypt) and
    deleting entries, and listing, creating and deleting bookmarks. Every
    operation maps a session to a new session (and a value), or to an error
    with the session left as it was. */
module Repository {
  import opened Outcomes
  import opened Bytes
  import Base64
  import opened Crypto
  import opened Schema
  import opened Entities
  import opened Unlock

  const HMAC_NAME: string := "HMAC-SHA256"
  /** The crypto properties of an entry, in the order `get_entry` checks them. */
  const CRYPTO_FIELDS: seq<string> := ["cipher", "nonce", "hmac", "digest"]

  /** An entry as listed: timestamps only, content not loaded. */
  function Listed(id: Id, row: EntryRow): LogEntry
  {
    LogEntry(id, row.ctime, row.mtime, None)
  }

  /** The ids of a list of entries, in order. */
  function EntryIds(es: seq<LogEntry>): (ids: seq<Id>)
    ensures |ids| == |es| && forall i :: 0 <= i < |es| ==> ids[i] == es[i].id
  {
    seq(|es|, i requires 0 <= i < |es| => es[i].id)
  }

  /** The rows with the given ids, in that order, as listed entries. */
  function ListRows(rows: map<Id, EntryRow>, ids: seq<Id>): seq<LogEntry>
    requires forall i :: 0 <= i < |ids| ==> ids[i] in rows
  {
    if |ids| == 0 then []
    else [Listed(ids[0], rows[ids[0]])] + ListRows(rows, ids[1..])
  }

  /** One listed entry per id, in order, each its row's timestamps. */
  lemma {:induction false} ListRowsSpec(rows: map<Id, EntryRow>, ids: seq<Id>)
    requires forall i :: 0 <= i < |ids| ==> ids[i] in rows
    ensures var es := ListRows(rows, ids);
      && EntryIds(es) == ids
      && forall i :: 0 <= i < |ids| ==> es[i] == Listed(ids[i], rows[ids[i]])
    decreases |ids|
  {
    if |ids| > 0 {
      ListRowsSpec(rows, ids[1..]);
      var es := ListRows(rows, ids);
      assert EntryIds(es) == [ids[0]] + EntryIds(ListRows(rows, ids[1..]));
      assert ids == [ids[0]] + ids[1..];
    }
  }

  /** The listing of an entry table: every row in rowid order, with its
      content left unloaded whatever is stored. */
  function EntryListing(rows: map<Id, EntryRow>): seq<LogEntry>
  {
    ListRows(rows, RowIdOrder(rows.Keys))
  }

  /** The listing holds every row once, in ascending rowid order, each with
      its timestamps and no content. */
  lemma EntryListingSpec(rows: map<Id, EntryRow>)
    ensures var es := EntryListing(rows);
      && (forall id :: id in EntryIds(es) <==> id in rows)
      && (forall i, j :: 0 <= i < j < |es| ==> es[i].id < es[j].id)
      && (forall i :: 0 <= i < |es| ==> es[i].id in rows && es[i] == Listed(es[i].id, rows[es[i].id]))
      && (forall i :: 0 <= i < |es| ==> es[i].data.None?)
  {
    ListRowsSpec(rows, RowIdOrder(rows.Keys));
  }

  /** An entry is listed exactly when its id is a row of the table and it
      carries that row's timestamps and no content. */
  lemma EntryListingMember(rows: map<Id, EntryRow>, e: LogEntry)
    ensures e in EntryListing(rows) <==> e.id in rows && e == Listed(e.id, rows[e.id])
  {
    var es := EntryListing(rows);
    EntryListingSpec(rows);
    if e.id in rows && e == Listed(e.id, rows[e.id]) {
      var i :| 0 <= i < |es| && EntryIds(es)[i] == e.id;
      assert es[i] == e;
    }
  }

  /** `list_entries`: the session's entries in scan order, each with its
      row's timestamps and no content. */
  function ListEntries(s: Session): (es: seq<LogEntry>)
    ensures EntryIds(es) == RowIdOrder(s.db.logentry.Keys)
    ensures forall i :: 0 <= i < |es| ==> es[i] == Listed(es[i].id, s.db.logentry[es[i].id])
  {
    ListRowsSpec(s.db.logentry, RowIdOrder(s.db.logentry.Keys));
    EntryListing(s.db.logentry)
  }

  /** `new_entry`: insert a row stamped `now` for both times and with no
      content; return it as an entry. */
  function NewEntry(s: Session, now: int): (r: (Session, LogEntry))
    ensures r.1.id !in s.db.logentry
    ensures forall id :: id in s.db.logentry ==> id < r.1.id
    ensures r.1 == LogEntry(r.1.id, now, now, None)
    ensures r.0.db.logentry == s.db.logentry[r.1.id := EntryRow(now, now, None)]
    ensures r.0 == Session(s.key, s.db.(logentry := r.0.db.logentry))
  {
    var id := NextRowId(s.db.logentry.Keys);
    var row := EntryRow(now, now, None);
    (Session(s.key, s.db.(logentry := s.db.logentry[id := row])), Listed(id, row))
  }

  /** The crypto properties `save_entry` writes for one encryption. */
  function CryptoRecord(nonce: seq<byte>, digest: string): (props: map<string, string>)
    ensures forall k :: k in props <==> k in CRYPTO_FIELDS
    ensures props["cipher"] == CIPHER_NAME && props["hmac"] == HMAC_NAME
    ensures props["nonce"] == Base64.Encode(nonce) && props["digest"] == digest
  {
    map["cipher" := CIPHER_NAME, "nonce" := Base64.Encode(nonce),
        "hmac" := HMAC_NAME, "digest" := digest]
  }

  /** Content as `save_entry` stores it: the base64 text of the ciphertext
      and the crypto properties naming the cipher, the nonce, the MAC and
      the hex digest of the ciphertext. */
  datatype Sealed = Sealed(data: string, props: map<string, string>)

  /** Encrypt `plain` under `key` with a counter starting at `nonce`, then
      MAC the ciphertext with the same key. */
  function Seal(P: Primitives, key: seq<byte>, nonce: seq<byte>, plain: seq<byte>): (r: Sealed)
    requires |nonce| == BLOCK_SIZE
    ensures Base64.Decode(r.data) == Some(Ctr(P, key, nonce, plain))
    ensures r.props == CryptoRecord(nonce, HexDigest(P, key, Ctr(P, key, nonce, plain)))
  {
    var ciphertext := Ctr(P, key, nonce, plain);
    Base64.DecodeEncode(ciphertext);
    Sealed(Base64.Encode(ciphertext), CryptoRecord(nonce, HexDigest(P, key, ciphertext)))
  }

  /** `save_entry`: the entry must already exist; nothing changes when it
      does not. */
  function SaveEntry(P: Primitives, s: Session, e: LogEntry, nonce: seq<byte>): (r: Result<Session, Error>)
    requires |nonce| == BLOCK_SIZE
    ensures r.Err? <==> e.id !in s.db.logentry
    ensures r.Err? ==> r.error == EntryDoesNotExist(e.id)
    ensures r.Ok? ==> r.value == SaveExisting(P, s, e, nonce)
  {
    if e.id !in s.db.logentry then Err(EntryDoesNotExist(e.id))
    else Ok(SaveExisting(P, s, e, nonce))
  }

  /** What `save_entry` writes for an entry's content: nothing when it is
      None, otherwise the sealed text and its crypto properties. */
  function SealContent(P: Primitives, key: seq<byte>, data: Option<seq<byte>>, nonce: seq<byte>)
    : (w: (Option<string>, Option<map<string, string>>))
    requires |nonce| == BLOCK_SIZE
    ensures w.0.None? <==> data.None?
    ensures w.1.None? <==> data.None?
  {
    match data
    case None => (None, None)
    case Some(plain) =>
      var sealed := Seal(P, key, nonce, plain);
      (Some(sealed.data), Some(sealed.props))
  }

  /** The update `save_entry` commits for an existing entry: its crypto
      properties are discarded; content that is not None is sealed under
      the fresh nonce and stored with its new crypto properties; the
      timestamps are overwritten with the entry's. The data column is NULL,
      and the entry has crypto properties, exactly as the content is None
      or present. */
  function SaveExisting(P: Primitives, s: Session, e: LogEntry, nonce: seq<byte>): (s': Session)
    requires e.id in s.db.logentry && |nonce| == BLOCK_SIZE
    ensures e.id in s'.db.logentry
    ensures s'.db.logentry[e.id].data.None? <==> e.data.None?
    ensures e.id in s'.db.crypto <==> e.data.Some?
  {
    var w := SealContent(P, s.key, e.data, nonce);
    var cleared := s.db.crypto - {e.id};
    var crypto := if w.1.Some? then cleared[e.id := w.1.value] else cleared;
    Session(s.key, s.db.(logentry := s.db.logentry[e.id := EntryRow(e.ctime, e.mtime, w.0)], crypto := crypto))
  }

  /** A save changes the entry's row and crypto properties and nothing else:
      the key, the verification table, the bookmarks, every other entry row
      and every other entry's crypto properties are as they were. */
  lemma SaveExistingFrame(P: Primitives, s: Session, e: LogEntry, nonce: seq<byte>)
    requires e.id in s.db.logentry && |nonce| == BLOCK_SIZE
    ensures var s' := SaveExisting(P, s, e, nonce);
      && s'.key == s.key && s'.db.verification == s.db.verification && s'.db.bookmark == s.db.bookmark
      && e.id in s'.db.logentry && s'.db.logentry == s.db.logentry[e.id := s'.db.logentry[e.id]]
      && forall i :: i != e.id ==> CryptoProps(s'.db, i) == CryptoProps(s.db, i)
  {
  }

  /** What a save writes for the entry itself: its timestamps; and either
      no content and no crypto properties, or the sealed content and its
      crypto properties. */
  lemma SaveExistingWrites(P: Primitives, s: Session, e: LogEntry, nonce: seq<byte>)
    requires e.id in s.db.logentry && |nonce| == BLOCK_SIZE
    ensures var s' := SaveExisting(P, s, e, nonce); var row := s'.db.logentry[e.id];
      && row.ctime == e.ctime && row.mtime == e.mtime
      && (row.data.None? <==> e.data.None?)
      && (e.id in s'.db.crypto <==> e.data.Some?)
      && (e.data.Some? ==> var sealed := Seal(P, s.key, nonce, e.data.value);
            row.data == Some(sealed.data) && s'.db.crypto[e.id] == sealed.props)
  {
  }

  /** The checks `get_entry` makes on an entry's crypto properties before it
      looks at the ciphertext. */
  function CheckCryptoProps(props: map<string, string>): (r: Result<(), Error>)
    ensures r.Ok? <==> (forall k :: k in CRYPTO_FIELDS ==> k in props)
                       && props["cipher"] == CIPHER_NAME && props["hmac"] == HMAC_NAME
    ensures FirstMissing(props, CRYPTO_FIELDS).Some? ==>
      r == Err(CryptoFieldMissing(FirstMissing(props, CRYPTO_FIELDS).value))
    ensures (FirstMissing(props, CRYPTO_FIELDS).None? && "cipher" in props && "hmac" in props
             && (props["cipher"] != CIPHER_NAME || props["hmac"] != HMAC_NAME)) ==> r == Err(UnknownCipherOrHmac)
  {
    match FirstMissing(props, CRYPTO_FIELDS)
    case Some(k) => Err(CryptoFieldMissing(k))
    case None =>
      assert CRYPTO_FIELDS[0] in props && CRYPTO_FIELDS[1] in props;
      assert CRYPTO_FIELDS[2] in props && CRYPTO_FIELDS[3] in props;
      if props["cipher"] != CIPHER_NAME || props["hmac"] != HMAC_NAME then Err(UnknownCipherOrHmac)
      else Ok(())
  }

  /** `get_entry`: the entry with its content decrypted. Stored content is
      returned only after the crypto properties are checked and the digest
      of the stored ciphertext matches the recorded one. */
  function GetEntry(P: Primitives, s: Session, id: Id): (r: Result<LogEntry, Error>)
    ensures r == Err(EntryNotFound) <==> id !in s.db.logentry
    ensures r.Ok? ==> var row := s.db.logentry[id];
      && r.value.id == id && r.value.ctime == row.ctime && r.value.mtime == row.mtime
      && (r.value.data.None? <==> row.data.None?)
    ensures r.Ok? && r.value.data.Some? ==>
      var props, stored := CryptoProps(s.db, id), s.db.logentry[id].data.value;
      && CheckCryptoProps(props).Ok?
      && Base64.Decode(stored).Some? && Base64.Decode(props["nonce"]).Some?
      && props["digest"] == HexDigest(P, s.key, Base64.Decode(stored).value)
      && r.value.data.value == Ctr(P, s.key, Base64.Decode(props["nonce"]).value, Base64.Decode(stored).value)
    ensures id in s.db.logentry && s.db.logentry[id].data.Some? && CheckCryptoProps(CryptoProps(s.db, id)).Err? ==>
      r == Err(CheckCryptoProps(CryptoProps(s.db, id)).error)
    ensures id in s.db.logentry && s.db.logentry[id].data.Some? && CheckCryptoProps(CryptoProps(s.db, id)).Ok? ==>
      var stored := Base64.Decode(s.db.logentry[id].data.value);
      stored.Some? && CryptoProps(s.db, id)["digest"] != HexDigest(P, s.key, stored.value) ==>
        r == Err(DigestMismatch)
    ensures id in s.db.logentry && s.db.logentry[id].data.Some? && CheckCryptoProps(CryptoProps(s.db, id)).Ok? ==>
      var stored, nonce := Base64.Decode(s.db.logentry[id].data.value), Base64.Decode(CryptoProps(s.db, id)["nonce"]);
      (stored.Some? && nonce.Some? && CryptoProps(s.db, id)["digest"] == HexDigest(P, s.key, stored.value) ==> r.Ok?)
    ensures id in s.db.logentry && s.db.logentry[id].data.Some? && CheckCryptoProps(CryptoProps(s.db, id)).Ok? ==>
      var stored, nonce := Base64.Decode(s.db.logentry[id].data.value), Base64.Decode(CryptoProps(s.db, id)["nonce"]);
      && (stored.None? ==> r == Err(Undecodable("data")))
      && (stored.Some? && CryptoProps(s.db, id)["digest"] == HexDigest(P, s.key, stored.value) && nonce.None? ==>
            r == Err(Undecodable("nonce")))
    ensures id in s.db.logentry && s.db.logentry[id].data.None? ==> r == Ok(Listed(id, s.db.logentry[id]))
  {
    if id !in s.db.logentry then Err(EntryNotFound)
    else
      var row := s.db.logentry[id];
      match row.data
      case None => Ok(Listed(id, row))
      case Some(stored) =>
        var props := CryptoProps(s.db, id);
        var _ :- CheckCryptoProps(props);
        match Base64.Decode(stored)
        case None => Err(Undecodable("data"))
        case Some(ciphertext) =>
          if HexDigest(P, s.key, ciphertext) != props["digest"] then Err(DigestMismatch)
          else (
            match Base64.Decode(props["nonce"])
            case None => Err(Undecodable("nonce"))
            case Some(nonce) => Ok(LogEntry(id, row.ctime, row.mtime, Some(Ctr(P, s.key, nonce, ciphertext))))
          )
  }

  /** `del_entry`: delete the entry row. The `logentry_clean` trigger fires
      for each deleted row and removes the entry's crypto properties and the
      bookmarks referring to it; when no row has the id, nothing is deleted
      and the trigger does not fire. */
  function DelEntry(s: Session, id: Id): (s': Session)
    ensures id !in s'.db.logentry
    ensures s'.key == s.key && s'.db.verification == s.db.verification
    ensures forall i :: i != id ==> (i in s'.db.logentry <==> i in s.db.logentry)
    ensures forall i :: i in s'.db.logentry ==> s'.db.logentry[i] == s.db.logentry[i]
    ensures forall i :: i != id ==> CryptoProps(s'.db, i) == CryptoProps(s.db, i)
    ensures id in s.db.logentry ==> id !in s'.db.crypto
    ensures id in s.db.logentry ==> forall b :: b in s'.db.bookmark <==>
      (b in s.db.bookmark && s.db.bookmark[b].entry != id)
    ensures forall b :: b in s'.db.bookmark ==> b in s.db.bookmark && s'.db.bookmark[b] == s.db.bookmark[b]
    ensures id !in s.db.logentry ==> s' == s
  {
    if id !in s.db.logentry then s
    else
      var kept := map b | b in s.db.bookmark && s.db.bookmark[b].entry != id :: s.db.bookmark[b];
      Session(s.key, s.db.(logentry := s.db.logentry - {id}, crypto := s.db.crypto - {id}, bookmark := kept))
  }

  /** Whether a stored bookmark text is well-formed base64. */
  predicate Readable(row: BookmarkRow)
  {
    Base64.Decode(row.text).Some?
  }

  /** Whether every stored bookmark text is well-formed base64. */
  predicate AllReadable(rows: map<Id, BookmarkRow>)
  {
    forall b :: b in rows ==> Readable(rows[b])
  }

  /** The bookmark a readable row stands for: its entry and decoded text. */
  function ReadBookmark(id: Id, row: BookmarkRow): Bookmark
    requires Readable(row)
  {
    Bookmark(id, row.entry, Base64.Decode(row.text).value)
  }

  /** The readable bookmark rows with the given ids, in that order. */
  function ReadRows(rows: map<Id, BookmarkRow>, ids: seq<Id>): seq<Bookmark>
    requires AllReadable(rows) && forall i :: 0 <= i < |ids| ==> ids[i] in rows
  {
    if |ids| == 0 then []
    else [ReadBookmark(ids[0], rows[ids[0]])] + ReadRows(rows, ids[1..])
  }

  /** One bookmark per id, in order, each read from its row. */
  lemma {:induction false} ReadRowsSpec(rows: map<Id, BookmarkRow>, ids: seq<Id>)
    requires AllReadable(rows) && forall i :: 0 <= i < |ids| ==> ids[i] in rows
    ensures var bs := ReadRows(rows, ids);
      && BookmarkIds(bs) == ids
      && forall i :: 0 <= i < |ids| ==> bs[i] == ReadBookmark(ids[i], rows[ids[i]])
    decreases |ids|
  {
    if |ids| > 0 {
      ReadRowsSpec(rows, ids[1..]);
      var bs := ReadRows(rows, ids);
      assert BookmarkIds(bs) == [ids[0]] + BookmarkIds(ReadRows(rows, ids[1..]));
      assert ids == [ids[0]] + ids[1..];
    }
  }

  /** The ids of a list of bookmarks, in order. */
  function BookmarkIds(bs: seq<Bookmark>): (ids: seq<Id>)
    ensures |ids| == |bs| && forall i :: 0 <= i < |bs| ==> ids[i] == bs[i].id
  {
    seq(|bs|, i requires 0 <= i < |bs| => bs[i].id)
  }

  /** The listing of a bookmark table: every row in rowid order with its
      text decoded, or an error as soon as one stored text is not base64
      (which one does not matter: the error is the same). */
  function BookmarkListing(rows: map<Id, BookmarkRow>): (r: Result<seq<Bookmark>, Error>)
    ensures r.Ok? <==> AllReadable(rows)
    ensures r.Err? ==> r.error == Undecodable("bookmark_text")
  {
    if AllReadable(rows) then Ok(ReadRows(rows, RowIdOrder(rows.Keys)))
    else Err(Undecodable("bookmark_text"))
  }

  /** The listing succeeds exactly when every stored text decodes, and
      fails with the decoding error otherwise. */
  lemma BookmarkListingOutcome(rows: map<Id, BookmarkRow>)
    ensures var r := BookmarkListing(rows);
      && (r.Ok? <==> forall b :: b in rows ==> Base64.Decode(rows[b].text).Some?)
      && (r.Err? ==> r.error == Undecodable("bookmark_text"))
  {
  }

  /** A successful listing holds every row once, in ascending rowid order. */
  lemma BookmarkListingOrder(rows: map<Id, BookmarkRow>)
    ensures var r := BookmarkListing(rows);
      && (r.Ok? ==> forall id :: id in BookmarkIds(r.value) <==> id in rows)
      && (r.Ok? ==> forall i, j :: 0 <= i < j < |r.value| ==> r.value[i].id < r.value[j].id)
  {
    if AllReadable(rows) {
      ReadRowsSpec(rows, RowIdOrder(rows.Keys));
    }
  }

  /** Each bookmark of a successful listing carries its row's entry and the
      bytes its row's text decodes to. */
  lemma BookmarkListingRows(rows: map<Id, BookmarkRow>)
    ensures var r := BookmarkListing(rows);
      r.Ok? ==> forall i :: 0 <= i < |r.value| ==> var b := r.value[i];
        b.id in rows && b.entry == rows[b.id].entry && Base64.Decode(rows[b.id].text) == Some(b.text)
  {
    if AllReadable(rows) {
      ReadRowsSpec(rows, RowIdOrder(rows.Keys));
    }
  }

  /** A bookmark is read from the given ids exactly when its id is one of
      them and it is what its row reads as. */
  lemma {:induction false} ReadRowsMember(rows: map<Id, BookmarkRow>, ids: seq<Id>, b: Bookmark)
    requires AllReadable(rows) && forall i :: 0 <= i < |ids| ==> ids[i] in rows
    ensures b in ReadRows(rows, ids) <==> b.id in ids && b == ReadBookmark(b.id, rows[b.id])
    decreases |ids|
  {
    if |ids| > 0 {
      ReadRowsMember(rows, ids[1..], b);
      assert ids == [ids[0]] + ids[1..];
    }
  }

  /** When every text decodes, a bookmark is listed exactly when its id is
      a row of the table and it carries that row's entry and decoded text. */
  lemma BookmarkListingMember(rows: map<Id, BookmarkRow>, b: Bookmark)
    requires AllReadable(rows)
    ensures b in BookmarkListing(rows).value <==> b.id in rows && b == ReadBookmark(b.id, rows[b.id])
  {
    ReadRowsMember(rows, RowIdOrder(rows.Keys), b);
  }

  /** `list_bookmarks`: when every stored text is base64, the session's
      bookmarks in scan order, each read from its row; otherwise the
      decoding error. */
  function ListBookmarks(s: Session): (r: Result<seq<Bookmark>, Error>)
    ensures r.Ok? <==> AllReadable(s.db.bookmark)
    ensures r.Err? ==> r.error == Undecodable("bookmark_text")
    ensures r.Ok? ==> BookmarkIds(r.value) == RowIdOrder(s.db.bookmark.Keys)
  {
    if AllReadable(s.db.bookmark) then
      ReadRowsSpec(s.db.bookmark, RowIdOrder(s.db.bookmark.Keys));
      BookmarkListing(s.db.bookmark)
    else BookmarkListing(s.db.bookmark)
  }

  /** `new_bookmark`: insert a bookmark with base64-encoded text. The entry id
      is stored as given; it is not checked against `logentry`. */
  function NewBookmark(s: Session, entry: Id, text: seq<byte>): (r: (Session, Bookmark))
    ensures r.1.id !in s.db.bookmark
    ensures forall b :: b in s.db.bookmark ==> b < r.1.id
    ensures r.1 == Bookmark(r.1.id, entry, text)
    ensures r.0.db.bookmark == s.db.bookmark[r.1.id := BookmarkRow(entry, Base64.Encode(text))]
    ensures r.0 == Session(s.key, s.db.(bookmark := r.0.db.bookmark))
  {
    var id := NextRowId(s.db.bookmark.Keys);
    (Session(s.key, s.db.(bookmark := s.db.bookmark[id := BookmarkRow(entry, Base64.Encode(text))])),
     Bookmark(id, entry, text))
  }

  /** `del_bookmark`: delete one bookmark row, if present. */
  function DelBookmark(s: Session, id: Id): (s': Session)
    ensures id !in s'.db.bookmark
    ensures forall b :: b != id ==> (b in s'.db.bookmark <==> b in s.db.bookmark)
    ensures forall b :: b in s'.db.bookmark ==> s'.db.bookmark[b] == s.db.bookmark[b]
    ensures s' == Session(s.key, s.db.(bookmark := s'.db.bookmark))
  {
    Session(s.key, s.db.(bookmark := s.db.bookmark - {id}))
  }
}

=== FILE: repository_laws.dfy ===
/** What the repository operations promise about one another: a saved entry
    loads back, the cascade of `del_entry`, idempotent deletes, lists that
    grow by exactly the new row, and a consistency invariant every
    operation keeps, under which every load and every bookmark listing
    succeeds. */
module RepositoryLaws {
  import opened Outcomes
  import opened Bytes
  import Base64
  import opened Crypto
  import opened Schema
  import opened Entities
  import opened Unlock
  import opened Repository

  // ---------------------------------------------------------------------
  // save_entry and get_entry

  /** Saving an existing entry and loading it back gives the saved entry:
      the content decrypts to the plaintext that was encrypted. */
  lemma SaveThenGet(P: Primitives, s: Session, e: LogEntry, nonce: seq<byte>)
    requires |nonce| == BLOCK_SIZE
    requires e.id in s.db.logentry
    ensures SaveEntry(P, s, e, nonce).Ok?
    ensures GetEntry(P, SaveEntry(P, s, e, nonce).value, e.id) == Ok(e)
  {
    var s' := SaveExisting(P, s, e, nonce);
    SaveExistingFrame(P, s, e, nonce);
    SaveExistingWrites(P, s, e, nonce);
    if e.data.Some? {
      var sealed := Seal(P, s.key, nonce, e.data.value);
      assert CryptoProps(s'.db, e.id) == sealed.props;
      assert CheckCryptoProps(sealed.props).Ok?;
      Base64.DecodeEncode(nonce);
      CtrRoundTrip(P, s.key, nonce, e.data.value);
    }
  }

  /** A load reads the session key, the entry's row and its crypto
      properties, and nothing else. */
  lemma GetEntryFrame(P: Primitives, s: Session, t: Session, id: Id)
    requires s.key == t.key
    requires id in s.db.logentry <==> id in t.db.logentry
    requires id in s.db.logentry ==> s.db.logentry[id] == t.db.logentry[id]
    requires CryptoProps(s.db, id) == CryptoProps(t.db, id)
    ensures GetEntry(P, s, id) == GetEntry(P, t, id)
  {
  }

  /** Saving one entry leaves every other entry loading as before. */
  lemma SaveKeepsOtherEntries(P: Primitives, s: Session, e: LogEntry, nonce: seq<byte>, id: Id)
    requires |nonce| == BLOCK_SIZE
    requires e.id in s.db.logentry && id != e.id
    ensures GetEntry(P, SaveExisting(P, s, e, nonce), id) == GetEntry(P, s, id)
  {
    var s' := SaveExisting(P, s, e, nonce);
    SaveExistingFrame(P, s, e, nonce);
    GetEntryFrame(P, s', s, id);
  }

  /** A loaded entry whose recorded digest is replaced by any other text no
      longer loads: the digest check fails. */
  lemma TamperedDigestRejected(P: Primitives, s: Session, id: Id, forged: string)
    requires GetEntry(P, s, id).Ok? && GetEntry(P, s, id).value.data.Some?
    requires forged != CryptoProps(s.db, id)["digest"]
    ensures var t := s.(db := s.db.(crypto := s.db.crypto[id := CryptoProps(s.db, id)["digest" := forged]]));
      GetEntry(P, t, id) == Err(DigestMismatch)
  {
    var props := CryptoProps(s.db, id);
    var forgedProps := props["digest" := forged];
    var t := s.(db := s.db.(crypto := s.db.crypto[id := forgedProps]));
    assert CryptoProps(t.db, id) == forgedProps;
    assert forall k :: k in CRYPTO_FIELDS ==> k in forgedProps;
    assert CheckCryptoProps(forgedProps).Ok?;
  }

  /** The digest is compared before anything is decrypted: when it does not
      match, the outcome is the same whatever the block cipher. */
  lemma DigestCheckedBeforeDecryption(P: Primitives, aes: (seq<byte>, nat) -> Block, s: Session, id: Id)
    requires id in s.db.logentry && s.db.logentry[id].data.Some?
    requires CheckCryptoProps(CryptoProps(s.db, id)).Ok?
    requires Base64.Decode(s.db.logentry[id].data.value).Some?
    requires CryptoProps(s.db, id)["digest"] != HexDigest(P, s.key, Base64.Decode(s.db.logentry[id].data.value).value)
    ensures GetEntry(P, s, id) == Err(DigestMismatch)
    ensures GetEntry(P.(aes := aes), s, id) == Err(DigestMismatch)
  {
    assert HexDigest(P.(aes := aes), s.key, Base64.Decode(s.db.logentry[id].data.value).value)
        == HexDigest(P, s.key, Base64.Decode(s.db.logentry[id].data.value).value);
  }

  // ---------------------------------------------------------------------
  // new_entry and list_entries

  /** A new entry loads back as returned, with no content. */
  lemma NewEntryThenGet(P: Primitives, s: Session, now: int)
    ensures var r := NewEntry(s, now);
      GetEntry(P, r.0, r.1.id) == Ok(r.1) && r.1.data.None?
  {
  }

  /** Listing reads only the rows it is given the ids of. */
  lemma {:induction false} ListRowsFrame(rows: map<Id, EntryRow>, rows': map<Id, EntryRow>, ids: seq<Id>)
    requires forall i :: 0 <= i < |ids| ==> ids[i] in rows && ids[i] in rows' && rows'[ids[i]] == rows[ids[i]]
    ensures ListRows(rows', ids) == ListRows(rows, ids)
    decreases |ids|
  {
    if |ids| > 0 {
      ListRowsFrame(rows, rows', ids[1..]);
    }
  }

  /** Listing one more id appends its entry. */
  lemma {:induction false} ListRowsSnoc(rows: map<Id, EntryRow>, ids: seq<Id>, id: Id)
    requires forall i :: 0 <= i < |ids| ==> ids[i] in rows
    requires id in rows
    ensures ListRows(rows, ids + [id]) == ListRows(rows, ids) + [Listed(id, rows[id])]
    decreases |ids|
  {
    if |ids| == 0 {
      assert ids + [id] == [id] && [id][1..] == [];
    } else {
      assert (ids + [id])[0] == ids[0];
      assert (ids + [id])[1..] == ids[1..] + [id];
      ListRowsSnoc(rows, ids[1..], id);
    }
  }

  /** A row added under a rowid above every other is listed last. */
  lemma EntryListingAppend(rows: map<Id, EntryRow>, id: Id, row: EntryRow)
    requires forall k :: k in rows ==> k < id
    ensures EntryListing(rows[id := row]) == EntryListing(rows) + [Listed(id, row)]
  {
    var ids := RowIdOrder(rows.Keys);
    assert forall i :: 0 <= i < |ids| ==> ids[i] in rows;
    ListWithRow(rows, ids, id, row);
    ScanWithRow(rows, id, row);
  }

  /** Listing the ids of `rows` followed by a new row's id. */
  lemma ListWithRow(rows: map<Id, EntryRow>, ids: seq<Id>, id: Id, row: EntryRow)
    requires forall k :: k in rows ==> k < id
    requires forall i :: 0 <= i < |ids| ==> ids[i] in rows
    ensures ListRows(rows[id := row], ids + [id]) == ListRows(rows, ids) + [Listed(id, row)]
  {
    var rows' := rows[id := row];
    assert forall i :: 0 <= i < |ids| ==> ids[i] in rows' && rows'[ids[i]] == rows[ids[i]];
    ListRowsFrame(rows, rows', ids);
    ListRowsSnoc(rows', ids, id);
  }

  /** Listing after `new_entry` gives the earlier listing followed by the new
      entry: its rowid is above every other. */
  lemma NewEntryThenList(s: Session, now: int)
    ensures var r := NewEntry(s, now);
      ListEntries(r.0) == ListEntries(s) + [r.1]
  {
    var r := NewEntry(s, now);
    EntryListingAppend(s.db.logentry, r.1.id, EntryRow(now, now, None));
  }

  // ---------------------------------------------------------------------
  // del_entry

  /** A deleted entry is no longer found. */
  lemma DelEntryThenGet(P: Primitives, s: Session, id: Id)
    ensures GetEntry(P, DelEntry(s, id), id) == Err(EntryNotFound)
  {
  }

  /** Deleting twice is deleting once. */
  lemma DelEntryIdempotent(s: Session, id: Id)
    ensures DelEntry(DelEntry(s, id), id) == DelEntry(s, id)
  {
  }

  /** Deleting one entry leaves every other entry loading as before. */
  lemma DelEntryKeepsOtherEntries(P: Primitives, s: Session, id: Id, other: Id)
    requires other != id
    ensures GetEntry(P, DelEntry(s, id), other) == GetEntry(P, s, other)
  {
    var s' := DelEntry(s, id);
    GetEntryFrame(P, s', s, other);
  }

  /** Listing after `del_entry` gives the earlier listing without the
      deleted entry. */
  lemma DelEntryThenList(s: Session, id: Id)
    ensures forall e :: e in ListEntries(DelEntry(s, id)) <==> e in ListEntries(s) && e.id != id
  {
    var s' := DelEntry(s, id);
    forall e
      ensures e in ListEntries(s') <==> e in ListEntries(s) && e.id != id
    {
      EntryListingMember(s'.db.logentry, e);
      EntryListingMember(s.db.logentry, e);
    }
  }

  /** After deleting an existing entry no listed bookmark refers to it, and
      every bookmark of another entry is still listed. */
  lemma DelEntryCascade(s: Session, id: Id)
    requires id in s.db.logentry
    ensures var r := ListBookmarks(DelEntry(s, id));
      r.Ok? ==> forall i :: 0 <= i < |r.value| ==> r.value[i].entry != id
    ensures var r := ListBookmarks(DelEntry(s, id));
      r.Ok? ==> forall b :: b in s.db.bookmark && s.db.bookmark[b].entry != id ==> b in BookmarkIds(r.value)
  {
    BookmarkListingOrder(DelEntry(s, id).db.bookmark);
    BookmarkListingRows(DelEntry(s, id).db.bookmark);
  }

  // ---------------------------------------------------------------------
  // new_bookmark, list_bookmarks, del_bookmark

  /** A new bookmark's stored text decodes back to the text given. */
  lemma NewBookmarkTextRoundTrip(s: Session, entry: Id, text: seq<byte>)
    ensures var r := NewBookmark(s, entry, text);
      Base64.Decode(r.0.db.bookmark[r.1.id].text) == Some(text)
  {
    Base64.DecodeEncode(text);
  }

  /** Reading bookmarks looks only at the rows it is given the ids of. */
  lemma {:induction false} ReadRowsFrame(rows: map<Id, BookmarkRow>, rows': map<Id, BookmarkRow>, ids: seq<Id>)
    requires AllReadable(rows) && forall i :: 0 <= i < |ids| ==> ids[i] in rows
    requires AllReadable(rows') && forall i :: 0 <= i < |ids| ==> ids[i] in rows' && rows'[ids[i]] == rows[ids[i]]
    ensures ReadRows(rows', ids) == ReadRows(rows, ids)
    decreases |ids|
  {
    if |ids| > 0 {
      ReadRowsFrame(rows, rows', ids[1..]);
    }
  }

  /** Reading one more id appends its bookmark. */
  lemma {:induction false} ReadRowsSnoc(rows: map<Id, BookmarkRow>, ids: seq<Id>, id: Id)
    requires AllReadable(rows) && forall i :: 0 <= i < |ids| ==> ids[i] in rows
    requires id in rows
    ensures ReadRows(rows, ids + [id]) == ReadRows(rows, ids) + [ReadBookmark(id, rows[id])]
    decreases |ids|
  {
    if |ids| == 0 {
      assert ids + [id] == [id] && [id][1..] == [];
    } else {
      assert (ids + [id])[0] == ids[0];
      assert (ids + [id])[1..] == ids[1..] + [id];
      ReadRowsSnoc(rows, ids[1..], id);
    }
  }

  /** A decodable row added under a rowid above every other is listed
      last. */
  lemma BookmarkListingAppend(rows: map<Id, BookmarkRow>, id: Id, row: BookmarkRow)
    requires forall k :: k in rows ==> k < id
    requires AllReadable(rows) && Readable(row)
    ensures BookmarkListing(rows[id := row]) == Ok(BookmarkListing(rows).value + [ReadBookmark(id, row)])
  {
    AllReadableWithRow(rows, id, row);
    ScanWithRow(rows, id, row);
    ReadWithRow(rows, RowIdOrder(rows.Keys), id, row);
  }

  /** Adding a readable row keeps every text readable, or not. */
  lemma AllReadableWithRow(rows: map<Id, BookmarkRow>, id: Id, row: BookmarkRow)
    requires id !in rows && Readable(row)
    ensures AllReadable(rows[id := row]) <==> AllReadable(rows)
    ensures BookmarkListing(rows[id := row]).Ok? <==> BookmarkListing(rows).Ok?
  {
    var rows' := rows[id := row];
    assert forall b :: b in rows ==> b in rows' && rows'[b] == rows[b];
  }

  /** Reading the ids of `rows` followed by a new readable row's id. */
  lemma ReadWithRow(rows: map<Id, BookmarkRow>, ids: seq<Id>, id: Id, row: BookmarkRow)
    requires forall k :: k in rows ==> k < id
    requires AllReadable(rows) && forall i :: 0 <= i < |ids| ==> ids[i] in rows
    requires Readable(row)
    ensures ReadRows(rows[id := row], ids + [id]) == ReadRows(rows, ids) + [ReadBookmark(id, row)]
  {
    var rows' := rows[id := row];
    AllReadableWithRow(rows, id, row);
    assert forall i :: 0 <= i < |ids| ==> ids[i] in rows' && rows'[ids[i]] == rows[ids[i]];
    ReadRowsFrame(rows, rows', ids);
    ReadRowsSnoc(rows', ids, id);
  }

  /** The scan of a table with a row added above every other rowid. */
  lemma ScanWithRow<R>(rows: map<Id, R>, id: Id, row: R)
    requires forall k :: k in rows ==> k < id
    ensures RowIdOrder(rows[id := row].Keys) == RowIdOrder(rows.Keys) + [id]
  {
    RowIdOrderAppend(rows.Keys, id);
    assert rows[id := row].Keys == rows.Keys + {id};
  }

  /** Listing after `new_bookmark` gives the earlier listing followed by the
      new bookmark; a listing that failed before still fails. */
  lemma NewBookmarkThenList(s: Session, entry: Id, text: seq<byte>)
    ensures var r := NewBookmark(s, entry, text);
      ListBookmarks(r.0).Ok? <==> ListBookmarks(s).Ok?
    ensures var r := NewBookmark(s, entry, text);
      ListBookmarks(s).Ok? ==> ListBookmarks(r.0) == Ok(ListBookmarks(s).value + [r.1])
  {
    var r := NewBookmark(s, entry, text);
    var row := BookmarkRow(entry, Base64.Encode(text));
    Base64.DecodeEncode(text);
    AllReadableWithRow(s.db.bookmark, r.1.id, row);
    if AllReadable(s.db.bookmark) {
      BookmarkListingAppend(s.db.bookmark, r.1.id, row);
    }
  }

  /** Listing after `del_bookmark` gives the earlier listing without the
      deleted bookmark; a listing that succeeded still succeeds. */
  lemma DelBookmarkThenList(s: Session, id: Id)
    ensures ListBookmarks(s).Ok? ==> ListBookmarks(DelBookmark(s, id)).Ok?
    ensures ListBookmarks(s).Ok? ==> forall b :: b in ListBookmarks(DelBookmark(s, id)).value <==>
      b in ListBookmarks(s).value && b.id != id
  {
    var s' := DelBookmark(s, id);
    BookmarkListingOutcome(s.db.bookmark);
    if ListBookmarks(s).Ok? {
      assert AllReadable(s'.db.bookmark);
      forall b
        ensures b in ListBookmarks(s').value <==> b in ListBookmarks(s).value && b.id != id
      {
        BookmarkListingMember(s'.db.bookmark, b);
        BookmarkListingMember(s.db.bookmark, b);
      }
    }
  }

  /** Deleting twice is deleting once. */
  lemma DelBookmarkIdempotent(s: Session, id: Id)
    ensures DelBookmark(DelBookmark(s, id), id) == DelBookmark(s, id)
  {
  }

  /** Deleting a bookmark touches no entry: the entry listing and every
      load are unchanged. */
  lemma DelBookmarkKeepsEntries(P: Primitives, s: Session, id: Id, entry: Id)
    ensures ListEntries(DelBookmark(s, id)) == ListEntries(s)
    ensures GetEntry(P, DelBookmark(s, id), entry) == GetEntry(P, s, entry)
  {
    assert DelBookmark(s, id).db.logentry == s.db.logentry;
    GetEntryFrame(P, DelBookmark(s, id), s, entry);
  }

  // ---------------------------------------------------------------------
  // The consistency invariant

  /** What the backend keeps true of an open store: the key is certified by
      the verification table, crypto properties exist only for entries with
      content, every entry loads and every bookmark text decodes. */
  ghost predicate Consistent(P: Primitives, s: Session)
  {
    && Certified(P, s)
    && (forall id :: id in s.db.crypto ==> id in s.db.logentry && s.db.logentry[id].data.Some?)
    && (forall id :: id in s.db.logentry ==> GetEntry(P, s, id).Ok?)
    && AllReadable(s.db.bookmark)
  }

  /** Under the invariant the bookmark listing succeeds. */
  lemma ConsistentListBookmarks(P: Primitives, s: Session)
    requires Consistent(P, s)
    ensures ListBookmarks(s).Ok?
  {
    BookmarkListingOutcome(s.db.bookmark);
  }

  /** A newly created store is consistent. */
  lemma CreateConsistent(P: Primitives, passphrase: string, salt: seq<byte>, nonce: seq<byte>)
    requires |salt| == SALT_SIZE && |nonce| == BLOCK_SIZE
    ensures Consistent(P, Create(P, passphrase, salt, nonce))
  {
  }

  lemma NewEntryConsistent(P: Primitives, s: Session, now: int)
    requires Consistent(P, s)
    ensures Consistent(P, NewEntry(s, now).0)
  {
    var r := NewEntry(s, now);
    forall id | id in r.0.db.logentry
      ensures GetEntry(P, r.0, id).Ok?
    {
      if id == r.1.id {
        NewEntryThenGet(P, s, now);
      } else {
        GetEntryFrame(P, r.0, s, id);
      }
    }
  }

  lemma SaveEntryConsistent(P: Primitives, s: Session, e: LogEntry, nonce: seq<byte>)
    requires Consistent(P, s) && |nonce| == BLOCK_SIZE
    ensures SaveEntry(P, s, e, nonce).Ok? ==> Consistent(P, SaveEntry(P, s, e, nonce).value)
  {
    if e.id in s.db.logentry {
      var s' := SaveExisting(P, s, e, nonce);
      SaveExistingFrame(P, s, e, nonce);
      SaveExistingWrites(P, s, e, nonce);
      forall id | id in s'.db.logentry
        ensures GetEntry(P, s', id).Ok?
      {
        if id == e.id {
          SaveThenGet(P, s, e, nonce);
        } else {
          SaveKeepsOtherEntries(P, s, e, nonce, id);
        }
      }
      forall id | id in s'.db.crypto
        ensures id in s'.db.logentry && s'.db.logentry[id].data.Some?
      {
        if id != e.id {
          assert CryptoProps(s'.db, id) == CryptoProps(s.db, id);
        }
      }
      assert Certified(P, s');
    }
  }

  lemma DelEntryConsistent(P: Primitives, s: Session, id: Id)
    requires Consistent(P, s)
    ensures Consistent(P, DelEntry(s, id))
  {
    var s' := DelEntry(s, id);
    forall i | i in s'.db.logentry
      ensures GetEntry(P, s', i).Ok?
    {
      DelEntryKeepsOtherEntries(P, s, id, i);
    }
    assert Certified(P, s');
  }

  lemma NewBookmarkConsistent(P: Primitives, s: Session, entry: Id, text: seq<byte>)
    requires Consistent(P, s)
    ensures Consistent(P, NewBookmark(s, entry, text).0)
  {
    var r := NewBookmark(s, entry, text);
    NewBookmarkTextRoundTrip(s, entry, text);
    forall i | i in r.0.db.logentry
      ensures GetEntry(P, r.0, i).Ok?
    {
      GetEntryFrame(P, r.0, s, i);
    }
  }

  lemma DelBookmarkConsistent(P: Primitives, s: Session, id: Id)
    requires Consistent(P, s)
    ensures Consistent(P, DelBookmark(s, id))
  {
    var s' := DelBookmark(s, id);
    forall i | i in s'.db.logentry
      ensures GetEntry(P, s', i).Ok?
    {
      GetEntryFrame(P, s', s, i);
    }
  }
}

=== FILE: schema.dfy ===
/** The sqlite database of the default backend as an immutable value: the
    four relations created by `_create_empty_db`, each keyed the way the
    backend queries it, plus the session that pairs a database with the
    master key, and the backend's error conditions. */
module Schema {
  import opened Outcomes
  import opened Bytes

  /** An sqlite rowid (`id_le`, `id_bm`). */
  type Id = int

  /** A `prop_value` of the `verification` table, which has no declared
      type: text, or an integer (the iteration count). */
  datatype Value = Text(text: string) | Integer(number: int)

  /** A `logentry` row: timestamps and the base64 ciphertext, NULL while no
      content has been saved. */
  datatype EntryRow = EntryRow(ctime: int, mtime: int, data: Option<string>)

  /** A `bookmark` row: the referenced entry and the base64 bookmark text. */
  datatype BookmarkRow = BookmarkRow(entry: Id, text: string)

  /** The four relations. `verification` and each entry's `logentry_crypto`
      rows are property bags (name to value); a name stored twice is read
      back through `dict`, which keeps one value, so a map loses nothing the
      backend can observe. */
  datatype Db = Db(
    verification: map<string, Value>,
    logentry: map<Id, EntryRow>,
    crypto: map<Id, map<string, string>>,
    bookmark: map<Id, BookmarkRow>)

  /** An open backend: the database connection and the derived key. */
  datatype Session = Session(key: seq<byte>, db: Db)

  /** The failures the model covers: each condition under which it returns
      an error where the backend raises. */
  datatype Error =
    | VerificationFieldMissing(field: string)
    | UnknownKdf
    | UnknownCipher
    | WrongPassphrase
    | EntryDoesNotExist(id: Id)
    | EntryNotFound
    | CryptoFieldMissing(field: string)
    | UnknownCipherOrHmac
    | DigestMismatch
    | Undecodable(field: string)

  /** The tables as `_create_empty_db` leaves them. */
  const EmptyDb: Db := Db(map[], map[], map[], map[])

  /** The crypto property bag of an entry; no rows read as an empty bag. */
  function CryptoProps(db: Db, id: Id): map<string, string>
  {
    if id in db.crypto then db.crypto[id] else map[]
  }

  /** The first of `fields`, in order, that the property bag lacks. */
  function FirstMissing<V>(t: map<string, V>, fields: seq<string>): (r: Option<string>)
    ensures r.None? <==> forall i :: 0 <= i < |fields| ==> fields[i] in t
    ensures r.Some? ==> exists i :: 0 <= i < |fields| && fields[i] == r.value && r.value !in t
                         && forall j :: 0 <= j < i ==> fields[j] in t
  {
    if |fields| == 0 then None
    else if fields[0] !in t then Some(fields[0])
    else
      var r := FirstMissing(t, fields[1..]);
      if r.Some? then
        ghost var i :| 0 <= i < |fields| - 1 && fields[1..][i] == r.value && r.value !in t
                       && forall j :: 0 <= j < i ==> fields[1..][j] in t;
        assert fields[i + 1] == r.value;
        r
      else r
  }

  lemma {:induction false} MaxExists(ids: set<Id>)
    requires ids != {}
    ensures exists m :: m in ids && forall i :: i in ids ==> i <= m
  {
    var x := PickId(ids);
    if ids != {x} {
      var rest := ids - {x};
      MaxExists(rest);
      var m :| m in rest && forall i :: i in rest ==> i <= m;
      var top := if m < x then x else m;
      forall i | i in ids
        ensures i <= top
      {
        if i != x {
          assert i in rest;
        }
      }
      assert top in ids;
    } else {
      assert forall i :: i in ids ==> i <= x;
    }
  }

  /** Some element of a non-empty set of rowids. */
  ghost function PickId(ids: set<Id>): (x: Id)
    requires ids != {}
    ensures x in ids
  {
    assert exists x :: x in ids by {
      if forall x :: x !in ids {
        assert false;
      }
    }
    var x :| x in ids;
    x
  }

  /** The largest rowid of a non-empty table. */
  function MaxId(ids: set<Id>): (m: Id)
    requires ids != {}
    ensures m in ids
    ensures forall i :: i in ids ==> i <= m
  {
    MaxExists(ids);
    var m :| m in ids && forall i :: i in ids ==> i <= m;
    m
  }

  /** The rowid sqlite assigns to a row inserted without one (`lastrowid`):
      one more than the largest rowid in the table, 1 in an empty table. */
  function NextRowId(ids: set<Id>): (id: Id)
    ensures id !in ids
    ensures forall i :: i in ids ==> i < id
    ensures ids == {} ==> id == 1
    ensures ids != {} ==> id - 1 in ids
  {
    if ids == {} then 1 else MaxId(ids) + 1
  }

  /** The rowids of a table in ascending order: the order in which a full
      scan (`select ... from t;`) returns the rows of a rowid table. */
  function RowIdOrder(ids: set<Id>): (order: seq<Id>)
    ensures |order| == |ids|
    ensures forall i :: i in ids <==> i in order
    ensures forall i, j :: 0 <= i < j < |order| ==> order[i] < order[j]
    decreases |ids|
  {
    if ids == {} then []
    else
      var m := MaxId(ids);
      RowIdOrder(ids - {m}) + [m]
  }

  /** Adding a rowid above every other one appends it to the scan order. */
  lemma RowIdOrderAppend(ids: set<Id>, id: Id)
    requires forall i :: i in ids ==> i < id
    ensures RowIdOrder(ids + {id}) == RowIdOrder(ids) + [id]
  {
    var all := ids + {id};
    assert MaxId(all) == id;
    assert all - {id} == ids;
  }

  /** A strictly increasing sequence of rowids is determined by the rowids it
      holds: two scans of the same rows agree. */
  lemma {:induction false} IncreasingUnique(a: seq<Id>, b: seq<Id>)
    requires forall i, j :: 0 <= i < j < |a| ==> a[i] < a[j]
    requires forall i, j :: 0 <= i < j < |b| ==> b[i] < b[j]
    requires forall x :: x in a <==> x in b
    ensures a == b
    decreases |a|
  {
    if |a| > 0 {
      assert a[0] in a;
      assert |b| > 0 && b[0] in b;
      var ka :| 0 <= ka < |a| && a[ka] == b[0];
      var kb :| 0 <= kb < |b| && b[kb] == a[0];
      assert a[0] <= a[ka] && b[0] <= b[kb];
      assert a == [a[0]] + a[1..] && b == [b[0]] + b[1..];
      forall x
        ensures x in a[1..] <==> x in b[1..]
      {
        if x in a[1..] {
          var i :| 1 <= i < |a| && a[i] == x;
          assert x in a;
          var j :| 0 <= j < |b| && b[j] == x;
          assert j != 0;
          assert b[1..][j - 1] == x;
        }
        if x in b[1..] {
          var j :| 1 <= j < |b| && b[j] == x;
          assert x in b;
          var i :| 0 <= i < |a| && a[i] == x;
          assert i != 0;
          assert a[1..][i - 1] == x;
        }
      }
      IncreasingUnique(a[1..], b[1..]);
    }
  }

  /** The scan order is the only strictly increasing enumeration of the
      table's rowids. */
  lemma RowIdOrderUnique(ids: set<Id>, order: seq<Id>)
    requires forall i, j :: 0 <= i < j < |order| ==> order[i] < order[j]
    requires forall x :: x in order <==> x in ids
    ensures order == RowIdOrder(ids)
  {
    IncreasingUnique(order, RowIdOrder(ids));
  }
}

=== FILE: unlock.dfy ===
/** Store creation and the unlock protocol of `DefaultStorageBackend`'s
    constructor: on first use a verification record is written; on every
    later open the record is checked and the passphrase is accepted exactly
    when the derived key decrypts the stored verifier to the reference text. */
module Unlock {
  import opened Outcomes
  import opened Bytes
  import Base64
  import opened Crypto
  import opened Schema

  /** REFERENCE_TEXT, the plaintext of the verifier. */
  const REFERENCE_TEXT: seq<byte> := Latin1("CAPTAINS LOG")
  const KDF_NAME: string := "PBKDF2"
  const CIPHER_NAME: string := "AES-256"
  /** The verification properties, in the order the constructor checks them. */
  const VERIFICATION_FIELDS: seq<string> := ["kdf", "salt", "iterations", "cipher", "nonce", "verifier"]

  /** What an unlock reads back from a well-formed verification table. */
  datatype VerificationParams = VerificationParams(
    salt: seq<byte>, iterations: int, nonce: seq<byte>, verifier: seq<byte>)

  /** `value.decode('base64')` of a stored property. */
  function DecodeValue(v: Value): Option<seq<byte>>
  {
    match v
    case Text(s) => Base64.Decode(s)
    case Integer(_) => None
  }

  /** The verification table the constructor writes on first use: exactly
      the six properties the unlock checks. What they read back as is
      `ReadWrittenTable`. */
  function VerificationTable(salt: seq<byte>, nonce: seq<byte>, verifier: seq<byte>): (t: map<string, Value>)
    ensures t.Keys == {"kdf", "salt", "iterations", "cipher", "nonce", "verifier"}
  {
    map[
      "kdf" := Text(KDF_NAME),
      "salt" := Text(Base64.Encode(salt)),
      "iterations" := Integer(PBKDF2_ITERATIONS),
      "cipher" := Text(CIPHER_NAME),
      "nonce" := Text(Base64.Encode(nonce)),
      "verifier" := Text(Base64.Encode(verifier))]
  }

  /** The checks the constructor makes on the verification table: all six
      properties present, the kdf and cipher names recognised, the binary
      properties decodable and the iteration count an integer. A property
      that fails to decode is reported as `Undecodable` with its name. */
  function ReadVerification(t: map<string, Value>): (r: Result<VerificationParams, Error>)
    ensures FirstMissing(t, VERIFICATION_FIELDS).Some? ==>
      r == Err(VerificationFieldMissing(FirstMissing(t, VERIFICATION_FIELDS).value))
    ensures FirstMissing(t, VERIFICATION_FIELDS).None? ==>
      "kdf" in t && "salt" in t && "iterations" in t && "cipher" in t && "nonce" in t && "verifier" in t
    ensures r.Ok? <==>
      && FirstMissing(t, VERIFICATION_FIELDS).None?
      && t["kdf"] == Text(KDF_NAME) && t["cipher"] == Text(CIPHER_NAME)
      && DecodeValue(t["salt"]).Some? && t["iterations"].Integer?
      && DecodeValue(t["nonce"]).Some? && DecodeValue(t["verifier"]).Some?
    ensures FirstMissing(t, VERIFICATION_FIELDS).None? && t["kdf"] != Text(KDF_NAME) ==>
      r == Err(UnknownKdf)
    ensures (FirstMissing(t, VERIFICATION_FIELDS).None? && t["kdf"] == Text(KDF_NAME)
             && t["cipher"] != Text(CIPHER_NAME)) ==> r == Err(UnknownCipher)
    ensures r.Ok? ==>
      && (forall k :: k in VERIFICATION_FIELDS ==> k in t)
      && t["kdf"] == Text(KDF_NAME) && t["cipher"] == Text(CIPHER_NAME)
      && DecodeValue(t["salt"]) == Some(r.value.salt)
      && t["iterations"] == Integer(r.value.iterations)
      && DecodeValue(t["nonce"]) == Some(r.value.nonce)
      && DecodeValue(t["verifier"]) == Some(r.value.verifier)
    ensures r.Err? && !r.error.Undecodable? ==>
      FirstMissing(t, VERIFICATION_FIELDS).Some? || t["kdf"] != Text(KDF_NAME) || t["cipher"] != Text(CIPHER_NAME)
    ensures (FirstMissing(t, VERIFICATION_FIELDS).None? && t["kdf"] == Text(KDF_NAME) && t["cipher"] == Text(CIPHER_NAME)) ==>
      && (DecodeValue(t["salt"]).None? ==> r == Err(Undecodable("salt")))
      && (DecodeValue(t["salt"]).Some? && t["iterations"].Text? ==> r == Err(Undecodable("iterations")))
      && (DecodeValue(t["salt"]).Some? && t["iterations"].Integer? && DecodeValue(t["nonce"]).None? ==>
            r == Err(Undecodable("nonce")))
      && ((DecodeValue(t["salt"]).Some? && t["iterations"].Integer? && DecodeValue(t["nonce"]).Some?
           && DecodeValue(t["verifier"]).None?) ==> r == Err(Undecodable("verifier")))
  {
    match FirstMissing(t, VERIFICATION_FIELDS)
    case Some(k) => Err(VerificationFieldMissing(k))
    case None =>
      assert VERIFICATION_FIELDS[0] in t && VERIFICATION_FIELDS[1] in t && VERIFICATION_FIELDS[2] in t;
      assert VERIFICATION_FIELDS[3] in t && VERIFICATION_FIELDS[4] in t && VERIFICATION_FIELDS[5] in t;
      if t["kdf"] != Text(KDF_NAME) then Err(UnknownKdf)
      else if t["cipher"] != Text(CIPHER_NAME) then Err(UnknownCipher)
      else
        match (DecodeValue(t["salt"]), t["iterations"], DecodeValue(t["nonce"]), DecodeValue(t["verifier"]))
        case (None, _, _, _) => Err(Undecodable("salt"))
        case (_, Text(_), _, _) => Err(Undecodable("iterations"))
        case (_, _, None, _) => Err(Undecodable("nonce"))
        case (_, _, _, None) => Err(Undecodable("verifier"))
        case (Some(salt), Integer(n), Some(nonce), Some(verifier)) =>
          Ok(VerificationParams(salt, n, nonce, verifier))
  }

  /** The table written at creation reads back as the values written. */
  lemma ReadWrittenTable(salt: seq<byte>, nonce: seq<byte>, verifier: seq<byte>)
    ensures ReadVerification(VerificationTable(salt, nonce, verifier))
         == Ok(VerificationParams(salt, PBKDF2_ITERATIONS, nonce, verifier))
  {
    var t := VerificationTable(salt, nonce, verifier);
    assert FirstMissing(t, VERIFICATION_FIELDS).None? by {
      assert forall k :: k in VERIFICATION_FIELDS ==> k in t;
    }
    assert t["kdf"] == Text(KDF_NAME) && t["cipher"] == Text(CIPHER_NAME);
    assert t["iterations"] == Integer(PBKDF2_ITERATIONS);
    assert DecodeValue(t["salt"]) == Some(salt) by { Base64.DecodeEncode(salt); }
    assert DecodeValue(t["nonce"]) == Some(nonce) by { Base64.DecodeEncode(nonce); }
    assert DecodeValue(t["verifier"]) == Some(verifier) by { Base64.DecodeEncode(verifier); }
  }

  /** The session's key is the one the store's verifier certifies: the
      verification table is well formed and its verifier decrypts under the
      key to the reference text. */
  ghost predicate Certified(P: Primitives, s: Session)
  {
    var r := ReadVerification(s.db.verification);
    r.Ok? && Ctr(P, s.key, r.value.nonce, r.value.verifier) == REFERENCE_TEXT
  }

  /** The creation path: derive a key from a fresh salt, encrypt the
      reference text under a fresh nonce, and store the verification record
      in otherwise empty tables. */
  function Create(P: Primitives, passphrase: string, salt: seq<byte>, nonce: seq<byte>): (s: Session)
    requires |salt| == SALT_SIZE && |nonce| == BLOCK_SIZE
    ensures s.key == DeriveKey(P, passphrase, salt, PBKDF2_ITERATIONS)
    ensures s.db.logentry == map[] && s.db.crypto == map[] && s.db.bookmark == map[]
    ensures s.db.verification == VerificationTable(salt, nonce, Ctr(P, s.key, nonce, REFERENCE_TEXT))
    ensures ReadVerification(s.db.verification)
         == Ok(VerificationParams(salt, PBKDF2_ITERATIONS, nonce, Ctr(P, s.key, nonce, REFERENCE_TEXT)))
    ensures Certified(P, s)
  {
    var key := DeriveKey(P, passphrase, salt, PBKDF2_ITERATIONS);
    var verifier := Ctr(P, key, nonce, REFERENCE_TEXT);
    ReadWrittenTable(salt, nonce, verifier);
    CtrRoundTrip(P, key, nonce, REFERENCE_TEXT);
    Session(key, EmptyDb.(verification := VerificationTable(salt, nonce, verifier)))
  }

  /** The unlock path: check the verification table, derive the key from the
      passphrase and the stored salt and iteration count, and accept the
      passphrase exactly when the stored verifier decrypts to the reference
      text. */
  function Unlock(P: Primitives, passphrase: string, db: Db): (r: Result<Session, Error>)
    ensures ReadVerification(db.verification).Err? ==> r == Err(ReadVerification(db.verification).error)
    ensures r.Ok? ==> r.value.db == db && Certified(P, r.value)
    ensures r.Ok? ==> var v := ReadVerification(db.verification).value;
      r.value.key == DeriveKey(P, passphrase, v.salt, v.iterations)
    ensures ReadVerification(db.verification).Ok? ==>
      var v := ReadVerification(db.verification).value;
      (r.Ok? <==> Ctr(P, DeriveKey(P, passphrase, v.salt, v.iterations), v.nonce, v.verifier) == REFERENCE_TEXT)
    ensures r.Err? && ReadVerification(db.verification).Ok? ==> r.error == WrongPassphrase
  {
    var v :- ReadVerification(db.verification);
    var key := DeriveKey(P, passphrase, v.salt, v.iterations);
    if Ctr(P, key, v.nonce, v.verifier) != REFERENCE_TEXT then Err(WrongPassphrase)
    else Ok(Session(key, db))
  }

  /** `first_run`: true exactly when no store exists yet. */
  function FirstRun(store: Option<Db>): bool
  {
    store.None?
  }

  /** The constructor: create the store when none exists (salt and nonce are
      the random bytes it would draw), otherwise unlock the existing one. */
  function Open(P: Primitives, passphrase: string, store: Option<Db>, salt: seq<byte>, nonce: seq<byte>)
    : (r: Result<Session, Error>)
    requires |salt| == SALT_SIZE && |nonce| == BLOCK_SIZE
    ensures FirstRun(store) ==> r == Ok(Create(P, passphrase, salt, nonce))
    ensures FirstRun(store) ==> r.Ok? && r.value.db.logentry == map[] && r.value.db.bookmark == map[]
    ensures !FirstRun(store) ==> r == Unlock(P, passphrase, store.value)
    ensures !FirstRun(store) && r.Ok? ==> r.value.db == store.value
    ensures r.Ok? ==> Certified(P, r.value)
  {
    if FirstRun(store) then Ok(Create(P, passphrase, salt, nonce))
    else Unlock(P, passphrase, store.value)
  }

  /** A store created with a passphrase unlocks with that passphrase, giving
      back the session its creation opened. */
  lemma CreateThenUnlock(P: Primitives, passphrase: string, salt: seq<byte>, nonce: seq<byte>)
    requires |salt| == SALT_SIZE && |nonce| == BLOCK_SIZE
    ensures var s := Create(P, passphrase, salt, nonce);
      Unlock(P, passphrase, s.db) == Ok(s)
      && Open(P, passphrase, Some(s.db), salt, nonce) == Ok(s)
  {
    var s := Create(P, passphrase, salt, nonce);
    assert Certified(P, s);
  }

  /** Reopening a created store with any passphrase: it unlocks exactly when
      the passphrase derives a key under which the stored verifier decrypts
      to the reference text, and every passphrase deriving the creation key
      unlocks it. */
  lemma ReopenCreatedStore(P: Primitives, p: string, q: string, salt: seq<byte>, nonce: seq<byte>)
    requires |salt| == SALT_SIZE && |nonce| == BLOCK_SIZE
    ensures var s := Create(P, p, salt, nonce);
      var kq := DeriveKey(P, q, salt, PBKDF2_ITERATIONS);
      && (Unlock(P, q, s.db).Ok? <==> Ctr(P, kq, nonce, Ctr(P, s.key, nonce, REFERENCE_TEXT)) == REFERENCE_TEXT)
      && (Unlock(P, q, s.db).Err? ==> Unlock(P, q, s.db).error == WrongPassphrase)
      && (kq == s.key ==> Unlock(P, q, s.db) == Ok(s))
  {
    var s := Create(P, p, salt, nonce);
    CtrRoundTrip(P, s.key, nonce, REFERENCE_TEXT);
  }

  /** A malformed verification table is rejected with an error other than
      WrongPassphrase, and the outcome depends neither on the passphrase nor
      on the primitives. */
  lemma MalformedTableRejected(P: Primitives, Q: Primitives, p: string, q: string, db: Db)
    requires ReadVerification(db.verification).Err?
    ensures Unlock(P, p, db) == Unlock(Q, q, db)
    ensures Unlock(P, p, db).Err? && Unlock(P, p, db).error != WrongPassphrase
  {
  }

  /** The verifier comparison is the only authentication: two passphrases
      that derive the same key are indistinguishable to the unlock. */
  lemma UnlockDependsOnlyOnDerivedKey(P: Primitives, p: string, q: string, db: Db)
    requires ReadVerification(db.verification).Ok?
    requires var v := ReadVerification(db.verification).value;
      DeriveKey(P, p, v.salt, v.iterations) == DeriveKey(P, q, v.salt, v.iterations)
    ensures Unlock(P, p, db) == Unlock(P, q, db)
  {
  }
}
